=== FILE: README.md ===
# go-settings: the settings tree, in Dafny

A model of the core of `go-settings`, a Go package that wraps a decoded YAML
document in a `Settings` object and addresses it with dotted keys such as
`server.ports.0`. The model covers four parts of the package:

- **the read side** (`get.go`): `Raw` walks the tree segment by segment; the typed
  accessors coerce what it finds (scalar, all-or-nothing array, all-or-nothing
  map); `Object`, `ObjectArray` and `ObjectMap` wrap sub-mappings with a path
  label;
- **the write side** (`set.go`): `getElement`, `setElement`, `createPath` and
  `getParent`, and on top of them `Set`, `Append` and `Delete`;
- **the default-valued accessors** (`dflt.go`): every accessor made total with a
  caller-supplied fallback;
- **`ParseSize`** (`utils.go`): a byte count with an optional binary unit suffix.

The tree is the recursive datatype `Values.Value` (null, boolean, integer, real,
string, sequence, mapping with string keys). A `Settings` holds a label and an
optional root mapping; `None` is Go's nil map. Go mutates maps and slices in
place through the references it finds while walking. Here every write returns
the rewritten tree instead:

- `Mutate.Lookup` plays the part of the reference the Go code holds;
- `Mutate.Replace` writes a changed container back along its path.

Every write returns a `Mutate.Outcome`: the settings afterwards and the error
returned. Go's run-time panics become preconditions:

- `Get.RawSafe` for reads: no negative index against a sequence;
- `Mutate.PathSafe` for writes: no `getElement` on an out-of-range index;
- a nil root for a `Delete` of three or more segments.

Modules, one per file:

| file | module | contents |
|---|---|---|
| errors.dfy | `Errors` | the five sentinel errors, `Option`, `Result` |
| values.dfy | `Values` | `Value`, `Settings`, the nil-root reading |
| strings.dfy | `Strings` | `strings.Split`, `strconv.Atoi`, `%d`, `ToLower`, `TrimSpace` |
| get.dfy | `Get` | `Raw` and every typed accessor |
| set.dfy | `Mutate` | element access, path creation, `Set`, `Append`, `Delete` |
| set_laws.dfy | `MutateLaws` | what the writes promise, stated through `Raw` |
| dflt.dfy | `Defaults` | the `*Dflt` accessors |
| size.dfy | `Size` | `ParseSize`, its unit table, and the function as written |

## Model

| member | source | states |
|---|---|---|
| Values.Unwrap | set.go:27-28 | a settings object handed to a write is stored as its mapping, a nil one as the empty mapping; any other value is stored as it is |
| Strings.Split | set.go:84 | a key splits into at least one segment, none of which contains the separator, and joining the segments gives the key back |
| Strings.SplitJoin | get.go:55 | splitting the join of dot-free segments returns exactly those segments, so a label built with `.` splits back into its parts |
| Strings.ParseInt | set.go:18 | `strconv.Atoi`: a success needs at least one character; a text that starts with a digit must be all digits and reads as their decimal value; a negative result needs a leading `-` |
| Strings.ParseIntReads | set.go:18 | a text is accepted exactly when it is one or more decimal digits after an optional `+` or `-`, and its value is that of the digits, negated after a `-` |
| Strings.FormatNat | get.go:55 | `%d` of a natural number is a non-empty digit string whose decimal value is the number, with no leading zero: it has one digit exactly below ten and starts with `0` only for zero |
| Strings.ParseFormat | get.go:55 | an index printed with `%d` parses back to itself and contains no dot |
| Strings.ToLower | utils.go:28 | lower-casing keeps the length, maps every character through the ASCII case table, and leaves no upper-case letter |
| Strings.TrimLeft | utils.go:28 | the result is a suffix of the input, everything cut off is white space, and the result does not start with white space |
| Strings.TrimRight | utils.go:28 | the result is a prefix of the input, everything cut off is white space, and the result does not end with white space |
| Strings.TrimSpace | utils.go:28 | the trimmed text neither starts nor ends with white space |
| Strings.TrimSpaceCuts | utils.go:28 | TrimSpace removes an all-space prefix and an all-space suffix and returns the middle of the text unchanged: the text is the cut prefix followed by the result followed by the cut suffix |
| Strings.TrimSpacePadding | utils.go:28 | white space added on either side of a string does not change its trim |
| Get.Path | get.go:11 | every key has at least one segment |
| Get.Walk | get.go:12-32 | the walk fails only with KeyError or TypeError |
| Get.WalkConcat | get.go:13-31 | a walk along `p + q` is a walk along `p` continued along `q`, and is safe exactly when the continuation is |
| Get.WalkConcatFails | get.go:13-31 | once a walk has failed, extending the key cannot make it succeed |
| Get.WalkIntoScalar | get.go:28-30 | a further segment into a boolean, number, string or null is a TypeError, never a KeyError |
| Get.Raw | get.go:10-33 | a read reports only KeyError or TypeError |
| Get.RawEmpty | get.go:11-17 | on a nil or empty root every key is safe to read and reads as KeyError |
| Get.PathExtend | get.go:55 | the path of `key.seg`, for a dot-free segment, is the path of `key` followed by the segment |
| Get.RawElement | get.go:18-24 | item n of a sequence read at `key` is what `key.n` reads |
| Get.RawEntry | get.go:14-17 | entry k of a mapping read at `key` is what `key.k` reads, for a dot-free k |
| Get.RawMissingEntry | get.go:14-17 | a dot-free k missing from a mapping read at `key` reads as KeyError at `key.k` |
| Get.RawBadIndex | get.go:18-27 | against a sequence read at `key`, a dot-free segment that is not an integer, or is an index at or past the end, reads as KeyError |
| Get.RawMissingTop | get.go:11-17 | a dot-free key missing from the root reads as KeyError |
| Get.ParseBool | get.go:286 | `strconv.ParseBool` succeeds exactly on the twelve literals, and reads true exactly on the six true literals |
| Get.AsString | get.go:96-101 | only a string coerces, to its text; anything else is a TypeError |
| Get.AsInt | get.go:154-159 | only an integer coerces, to its value; anything else is a TypeError |
| Get.AsFloat | get.go:212-220 | a float coerces to itself and an integer is widened exactly; anything else is a TypeError |
| Get.AsBool | get.go:277-294 | getBoolValue: a boolean passes, an integer or float is true exactly when non-zero, a string is accepted only if it is a ParseBool literal, and everything else is a TypeError |
| Get.AsTable | get.go:37-42 | only a mapping coerces, to its entries; anything else is a TypeError |
| Get.CoerceAll | get.go:111-120 | all-or-nothing coercion of a sequence: it succeeds exactly when every item coerces, keeps the length and order, and on failure reports the error of some failing item |
| Get.CoerceEntries | get.go:137-146 | all-or-nothing coercion of a mapping: it succeeds exactly when every value coerces, and then keeps every key with its coerced value; otherwise the error is TypeError and some value fails to coerce |
| Get.SeqOf | get.go:108-127 | an array accessor succeeds exactly when the value read is a sequence whose every item coerces, and then keeps the length with item i coerced from raw item i; a read error is passed on, a non-sequence is a TypeError, and otherwise the error is that of a failing item |
| Get.MapOf | get.go:130-150 | a map accessor passes a read error on and gives TypeError for a non-mapping; on success it keeps every key with the coerced value, and it succeeds exactly when every value coerces |
| Get.String | get.go:95-105 | succeeds exactly on a string at the key, returning its text; a read error is passed on and anything else is a TypeError |
| Get.StringArray | get.go:108-127 | succeeds exactly on a sequence of strings, returning them in order; otherwise the read error or TypeError |
| Get.StringMap | get.go:130-150 | succeeds exactly on a mapping of strings, returning every key with its text; otherwise the read error or TypeError |
| Get.Int | get.go:153-163 | succeeds exactly on an integer at the key; otherwise the read error or TypeError |
| Get.IntArray | get.go:166-185 | succeeds exactly on a sequence of integers, returning them in order; otherwise the read error or TypeError |
| Get.IntMap | get.go:188-208 | succeeds exactly on a mapping of integers, returning every key with its value; otherwise the read error or TypeError |
| Get.Float | get.go:211-224 | succeeds exactly on a float or an integer; an integer is widened exactly |
| Get.FloatArray | get.go:227-248 | succeeds exactly on a sequence of floats and integers; item i is the widening of raw item i and the length is kept |
| Get.FloatMap | get.go:251-274 | succeeds exactly on a mapping of floats and integers; every key is kept with its widened value |
| Get.Bool | get.go:297-303 | the read error is passed on; a value read is coerced by getBoolValue |
| Get.BoolArray | get.go:306-324 | succeeds exactly when every item passes getBoolValue; item i is item i's boolean and the length is kept |
| Get.BoolMap | get.go:327-347 | succeeds exactly when every value passes getBoolValue; every key is kept with its boolean |
| Get.Object | get.go:36-46 | succeeds exactly on a mapping, labelled with the key and holding exactly that mapping; otherwise the read error or TypeError |
| Get.ObjectArray | get.go:49-68 | succeeds exactly on a sequence of mappings; element n is labelled `key.n` and holds item n |
| Get.ObjectMap | get.go:71-92 | succeeds exactly on a mapping of mappings; entry k is labelled `key.k` and holds entry k |
| Get.ArrayElementsAgree | get.go:108-224 | element n of StringArray, IntArray or FloatArray is what String, Int or Float return at `key.n` |
| Get.BoolAndObjectArrayElementsAgree | get.go:49-68 | element n of BoolArray or ObjectArray is what Bool or Object return at `key.n` |
| Get.MapEntriesAgree | get.go:71-92 | entry k of every map accessor is what the scalar accessor of the same kind returns at `key.k` |
| Mutate.GetElement | set.go:9-23 | getElement succeeds on a present mapping key or an integer sequence segment and returns that entry or item; a missing mapping key is an IndexError, and anything else is an ObjectError |
| Mutate.SetElement | set.go:26-46 | setElement: a mapping always takes the value and changes no other key; against a sequence a non-integer segment is an IndexError, an index outside it is a RangeError, and otherwise only that item changes and the length is kept; anything else is an ObjectError |
| Mutate.GetAfterSetElement | set.go:26-46 | reading back an element just stored gives the stored value |
| Mutate.SetElementUnchanged | set.go:26-46 | storing the element that is already there leaves the container as it was |
| Mutate.Lookup | set.go:50-61 | a chain of getElement calls fails only with IndexError or ObjectError |
| Mutate.PathSafePrefix | set.go:50-61 | a path that is safe to descend is safe along each of its prefixes |
| Mutate.LookupConcat | set.go:50-61 | descending `p + q` is descending `p` and then `q` |
| Mutate.LookupConcatFails | set.go:50-61 | a descent that failed stays failed with the same error when the path is extended |
| Mutate.LookupAgreesWithWalk | get.go:12-32 | where no getElement can panic, the write-side descent and Raw's walk succeed on the same paths and reach the same value |
| Mutate.Replace | set.go:55-56 | writing a container back at a path makes the path lead to it, keeps a mapping root a mapping, and touches no other top-level key |
| Mutate.WalkThroughReplace | set.go:55-56 | a read through a replaced container continues in the new container |
| Mutate.CreatePath | set.go:49-62 | createPath fails, with ObjectError, exactly when the descent meets a scalar or a non-integer segment against a sequence; on success the path leads to a container; an existing path changes nothing; a created path ends in a new empty mapping; an empty root always succeeds; only the first segment's top-level entry changes |
| Mutate.GetParent | set.go:65-72 | getParent is createPath on every segment but the last |
| Mutate.ParentOfPath | set.go:65-72 | after creating the parent, indexing it with the last segment is safe and finds exactly what the whole path found before; when it finds something, nothing was created |
| Mutate.LookupThroughReplace | set.go:85-86 | writing back a container that holds x at n makes `p + [n]` lead to x |
| Mutate.Store | set.go:85-86 | setElement at the parent, written back into the tree: the whole path leads to the stored value and the root stays a mapping |
| Mutate.SetElementFrame | set.go:31-41 | setElement leaves every other key of a mapping and every other index of a sequence reading as before |
| Mutate.ReplaceFrame | set.go:85-86 | writing a container back at a path leaves every read along a path apart from it unchanged, and exactly as safe; this is the write-back of every `setElement` in `Set` (set.go:85-86) and `Append` (set.go:125), and of `Delete`'s rewrite (set.go:152-158) |
| Mutate.StoreFrame | set.go:85-86 | storing a value at `p + [n]` leaves every read along a path apart from `p + [n]` unchanged, and exactly as safe |
| Mutate.CreatePathFrame | set.go:49-62 | createPath leaves every read along a path apart from the written one unchanged, and that path stays apart in the new tree |
| Mutate.Initialised | set.go:81-83 | a nil root becomes an empty mapping; the entries and the label are kept |
| Mutate.Commit | set.go:132-167 | a tree that was not rewritten leaves the settings exactly as they were, so a nil root stays nil |
| Mutate.Set | set.go:80-90 | Set reports only ObjectError, IndexError or RangeError, and on failure leaves the initialised settings; on success the whole path leads to the stored value (a nested settings object is stored as its mapping) |
| Mutate.Existing | set.go:117-123 | the sequence an Append extends: the items of a sequence found at the path, and nothing when the path is missing or holds anything else |
| Mutate.Append | set.go:97-126 | Append fails, with ObjectError and nothing changed, exactly when the descent fails with ObjectError; on success the key holds the sequence that was there (or none) extended by the value |
| Mutate.DeleteFromChild | set.go:151-164 | the last step of a nested Delete: a mapping loses the key; a sequence loses item n and later items move down one; a non-integer segment against a sequence changes nothing; a scalar is an ObjectError |
| Mutate.DeleteNested | set.go:142-164 | a nested Delete succeeds exactly when the container above the last segment exists and is a mapping or a sequence; when nothing is removed the settings are unchanged, and otherwise that container is replaced by its rewritten form |
| Mutate.Delete | set.go:132-167 | Delete reports only IndexError or ObjectError; a single segment is removed from the root without error, and a missing one changes nothing |
| MutateLaws.EmptyPathSafe | set.go:53-56 | any path is safe in an empty mapping, and a non-empty one stops at a missing key (IndexError) |
| MutateLaws.SetThenRaw | set.go:80-90 | after a successful Set, Raw at the same key returns the stored value |
| MutateLaws.SetErrors | set.go:80-90 | the full error table of Set, by what the parent path leads to: ObjectError on the way, creation of missing keys, mapping always accepts, sequence IndexError or RangeError, scalar ObjectError |
| MutateLaws.SetFrame | set.go:80-90 | after Set, every key whose path leaves the written path (another mapping key or another index at a container the path passes through) reads exactly as before and is safe exactly when it was |
| MutateLaws.SetTopLevelFrame | set.go:80-90 | Set changes no top-level entry except the one named by the key's first segment |
| MutateLaws.AppendNonIntegerIntoSequence | set.go:117-118 | Append with a non-integer last segment against an existing sequence reports ObjectError, not the IndexError of its doc comment |
| MutateLaws.AppendThenRaw | set.go:117-125 | after a successful Append, Raw at the key returns the earlier sequence (or the empty one if the key was missing or held anything else) extended by the value |
| MutateLaws.AppendTwice | set_test.go:65-154 | two Appends extend the sequence by both values in order |
| MutateLaws.AppendFrame | set.go:97-126 | after Append, every key whose path leaves the written path reads exactly as before and is safe exactly when it was |
| MutateLaws.WritesOnNilRoot | set.go:81-83 | on a nil root Set and Append succeed, and an Append starts a one-element sequence |
| MutateLaws.DeleteTopLevel | set.go:137-140 | a key without a dot is removed from the root; a missing key is no error and changes nothing |
| MutateLaws.DeleteErrors | set.go:145-164 | which error a nested Delete reports: a failed descent to the container holding the last segment passes its own error on (IndexError for a missing child, ObjectError for a scalar or an unusable sequence segment on the way); a container that is neither a mapping nor a sequence gives ObjectError; a mapping or a sequence gives no error; an ObjectError leaves the settings untouched, so nothing is created before it |
| MutateLaws.DeleteSucceeds | set.go:142-164 | a nested Delete succeeds exactly when the container above the last segment exists and is a mapping or a sequence |
| MutateLaws.DeleteThenRaw | set.go:150-161 | after a nested Delete, Raw at the key without its last segment reads the rewritten container; a non-integer segment against a sequence changes nothing and reports no error |
| MutateLaws.DeleteFromMapping | set.go:151-152 | after deleting a key from a mapping, Raw at the key reports KeyError |
| MutateLaws.DeleteCreatesStructure | set.go:142-148 | a nested Delete whose first segment is missing creates the missing mappings down to the parent of the container holding the last segment, the deepest one empty, and still fails with IndexError |
| MutateLaws.DeleteFrame | set.go:142-164 | after a nested Delete, every key whose path leaves the path of the container holding the last segment reads exactly as before and is safe exactly when it was |
| Defaults.RawDflt | dflt.go:4-10 | the value at the key, or the default on KeyError or TypeError |
| Defaults.ObjectDflt | dflt.go:13-19 | the sub-mapping labelled with the key when the key holds a mapping, otherwise the default |
| Defaults.ObjectArrayDflt | dflt.go:22-28 | ObjectArray's result when it succeeds; the default for a non-sequence; never a partial array |
| Defaults.ObjectMapDflt | dflt.go:31-37 | ObjectMap's result when it succeeds; the default for a non-mapping; never a partial map |
| Defaults.StringDflt | dflt.go:40-46 | the string at the key, or the default for any other kind or error |
| Defaults.StringArrayDflt | dflt.go:49-55 | StringArray's result when it succeeds; otherwise the default, never a partial array |
| Defaults.StringMapDflt | dflt.go:58-64 | StringMap's result when it succeeds; otherwise the default, never a partial map |
| Defaults.IntDflt | dflt.go:67-73 | the integer at the key, or the default |
| Defaults.IntArrayDflt | dflt.go:76-82 | IntArray's result when it succeeds; otherwise the default |
| Defaults.IntMapDflt | dflt.go:85-91 | IntMap's result when it succeeds; otherwise the default |
| Defaults.FloatDflt | dflt.go:94-100 | the float or widened integer at the key, or the default |
| Defaults.FloatArrayDflt | dflt.go:103-109 | FloatArray's result when it succeeds; otherwise the default |
| Defaults.FloatMapDflt | dflt.go:112-118 | FloatMap's result when it succeeds; otherwise the default |
| Defaults.BoolDflt | dflt.go:121-127 | getBoolValue's reading of the value at the key, case by case, and the default for a read error or a value getBoolValue refuses |
| Defaults.BoolArrayDflt | dflt.go:130-136 | BoolArray's result when it succeeds; otherwise the default, never a partial array |
| Defaults.BoolMapDflt | dflt.go:139-145 | BoolMap's result when it succeeds; otherwise the default, never a partial map |
| Defaults.MissingKeyGivesDefaults | dflt.go:4-145 | on a missing key every one of the sixteen `*Dflt` accessors returns its default unchanged |
| Size.Wrap64 | utils.go:40 | the two's-complement 64-bit product: within range, equal to the exact product modulo 2^64 |
| Size.FirstUnit | utils.go:30-37 | the suffix loop: the first unit in table order that the text ends in, or none, and no earlier unit matches |
| Size.Scale | utils.go:39-40 | succeeds exactly when the number parses and fits in 64 bits, and then gives the number times the factor wrapped to 64 bits |
| Size.Utf8Length | utils.go:31 | Go's `len` of a string counts at least one byte per character, and fewer than two bytes exactly for no text or one ASCII character |
| Size.SymbolSuffix | utils.go:31-32 | for a one- or two-letter ASCII symbol, the last bytes of a text are the symbol's bytes exactly when the text ends in the symbol |
| Size.ParseSize | utils.go:10-44 | the corrected parser: every result it gives fits in 64 bits |
| Size.FirstUnitAsWritten | utils.go:30-37 | the loop as written, comparing bytes: on a text of two or more UTF-8 bytes it finds the same unit as the guarded loop, and on a shorter one it panics at the first symbol |
| Size.AsWrittenAgrees | utils.go:28-43 | the function as written returns what ParseSize returns whenever the normalised text has two or more UTF-8 bytes, and panics otherwise (no text, or one ASCII character) |
| Size.UnitsShape | utils.go:16-26 | every symbol has one or two letters ending in b, k, m, g or t, and every factor is at least 1 |
| Size.UnitsOrder | utils.go:16-26 | no symbol is tried before a longer one and no symbol appears twice, so `kb` is found before `b` |
| Size.ParseSizeNormalises | utils.go:28 | case and white space around the text do not change the result |
| Size.ParseSizeWithoutUnit | utils.go:29-40 | when the normalised text ends in no unit symbol, it succeeds exactly when the whole text parses as an integer in 64-bit range, and the size is that integer |
| Size.ParseSizeWithUnit | utils.go:30-40 | when unit j is the first symbol in table order that ends the normalised text, it succeeds exactly when the trimmed text before the symbol parses as an integer in 64-bit range, and the size is that integer times the factor wrapped to 64 bits |
| Size.NumeralWithoutUnit | utils.go:39-40 | a signed decimal number alone succeeds exactly when it fits in 64 bits, and is that many bytes |
| Size.PlainCount | utils_test.go:15 | a decimal count with no suffix is that many bytes |
| Size.PlainCountAsWritten | utils.go:30-43 | the function as written reads counts of ten and more correctly |
| Size.NumberWithUnit | utils.go:28-40 | a signed decimal number, white space and a unit symbol succeed exactly when the number fits in 64 bits, and give its product with the factor wrapped to 64 bits |
| Size.CountWithUnit | utils_test.go:16-24 | a count followed by a unit is the count times the unit's factor, when the product fits in 64 bits |
| Size.NegativeKilobytes | utils.go:39-40 | `-5kb` is -5120 bytes |
| Size.CountWithUnitWraps | utils.go:40 | a count in range whose product with the factor leaves 64 bits is not refused: it gives the wrapped product, which differs from the true size |
| Size.CountWithUnitAnyCase | utils_test.go:27-35 | the same in any letter case, with white space before the count, between count and unit, and after the unit |
| Size.SpacedKilobytes | utils_test.go:33 | `" 92  Kb "` is 94208 bytes |
| Size.FractionRejected | utils_test.go:47 | `15.0` is refused |
| Size.WordRejected | utils_test.go:48 | `15 bits` is refused |
| Size.TextRejected | utils_test.go:49 | `not a number` is refused |
| Size.SingleDigitPanics | utils.go:31-32 | the text `5` panics in the function as written and is 5 bytes for the corrected parser |

## Left out

- `settings.go`: YAML decoding (`Parse`, `Read`), file I/O (`Load`) and `os.Exit` (`LoadOrExit`) are not modelled. Its copies of the accessors and of the write functions are an older version of `get.go` and `set.go`; they are modelled once, from those two files.
- Mapping keys are strings. YAML's non-string keys and their `%v` spelling in the map accessors (get.go:81, 140, 198, 261, 336) are not modelled.
- Aliasing between a sub-tree `Settings` and its parent is not modelled; writes return new trees. This includes the in-place `append(array[:n], array[n+1:]...)` of `Delete` and the slices shared by `setElement`.
- Floats are `real`. IEEE rounding, NaN and the widening `float64(int)` of very large integers are exact here.
- Strings.ParseInt: does not check the 64-bit range that `strconv.Atoi` enforces, so an index beyond 64 bits is accepted. `Size.Scale` adds the range check that `strconv.ParseInt(s, 10, 64)` makes.
- Strings.ToLower: lower-cases ASCII letters only, not the whole Unicode case table.
- Strings.TrimSpace: recognises the Latin-1 white space, not every Unicode space character.
- Go's run-time panics are preconditions, not results: a negative index against a sequence in `Raw` (get.go:20-21), an out-of-range index in `getElement` (set.go:18-19) and in `Delete`'s slicing (set.go:158), and a `Delete` of three or more segments on a nil root, which writes into a nil map.
- Values.Unwrap: a settings object with a nil root is stored as an empty mapping. Go stores the nil map itself, and a later nested write through it panics (set.go:32); that panic is not modelled. Only tree values can be written, while Go's `Set` accepts any value (a `[]string`, say), which the typed accessors would then refuse with TypeError.
- Mutate.Set: its own contract states no frame; MutateLaws.SetTopLevelFrame and MutateLaws.SetFrame do, the latter for every key apart from the written path.
- Mutate.Append: its own contract states no frame; MutateLaws.AppendFrame does.
- Mutate.Delete: its own contract says only that the error is IndexError or ObjectError; MutateLaws.DeleteErrors states which failure gives which.
- Mutate.DeleteNested: its own contract does not say which error each failure gives; MutateLaws.DeleteErrors does. It also states no frame; MutateLaws.DeleteFrame does, for every key apart from the path of the container holding the last segment. Inside that container a sequence moves its later elements down one, as Mutate.DeleteFromChild states.
- Size.ParseSize: its own contract states only the 64-bit bound; its values are stated by Size.ParseSizeWithoutUnit and Size.ParseSizeWithUnit.
- `Has`, `Duration*` and `Size*` accessors are not defined in the modelled files, so they are not modelled.
- Defaults: the `*Dflt` functions are total because the model's accessors are; that they never modify the tree holds because every function here is pure. No separate lemma states it.

## Findings

| source | as written | input that shows it | evidently intended | confidence | as-written member | corrected member |
|---|---|---|---|---|---|---|
| utils.go:30-32 | the suffix loop slices `s[pos:]` with `pos := len(s) - len(size.symbol)`, where `len` counts UTF-8 bytes, without checking that `pos` is not negative; the first symbol is `kb`, so every trimmed text shorter than two bytes (no text, or one ASCII character) panics | `ParseSize("5")` (also `""` and `" 7 "`) | a one-digit count is that many bytes, and an empty text is a syntax error, as for every longer text | not executed | Size.SingleDigitPanics | Size.PlainCount |

=== FILE: dflt.dfy ===
/** The *Dflt accessors of dflt.go: each calls its accessor and falls back to a
    caller-supplied default when the accessor reports any error. */
module Defaults {
  import opened Errors
  import opened Values
  import opened Get

  /** The value of a successful read, or the fallback. */
  function OrElse<T>(r: Result<T>, dflt: T): (v: T)
    ensures r.Ok? ==> v == r.value
    ensures r.Err? ==> v == dflt
  {
    match r
    case Ok(x) => x
    case Err(_) => dflt
  }

  /** A present key yields its raw value; a missing one, or a walk into a
      scalar, yields the default. */
  function RawDflt(s: Settings, key: string, dflt: Value): (r: Value)
    requires RawSafe(s, key)
    ensures Raw(s, key).Ok? ==> r == Raw(s, key).value
    ensures Raw(s, key).Err? ==> r == dflt
  {
    OrElse(Raw(s, key), dflt)
  }

  function ObjectDflt(s: Settings, key: string, dflt: Settings): (r: Settings)
    requires RawSafe(s, key)
    ensures Raw(s, key).Ok? && Raw(s, key).value.Mapping? ==>
              r == Settings(key, Some(Raw(s, key).value.entries))
    ensures !(Raw(s, key).Ok? && Raw(s, key).value.Mapping?) ==> r == dflt
  {
    OrElse(Object(s, key), dflt)
  }

  function ObjectArrayDflt(s: Settings, key: string, dflt: seq<Settings>): (r: seq<Settings>)
    requires RawSafe(s, key)
    ensures ObjectArray(s, key).Ok? ==> r == ObjectArray(s, key).value
    ensures !(Raw(s, key).Ok? && Raw(s, key).value.Sequence?) ==> r == dflt
    ensures r != dflt ==> |r| == |Raw(s, key).value.items|
                          && forall i :: 0 <= i < |r| ==> Root(r[i]) == Raw(s, key).value.items[i]
  {
    OrElse(ObjectArray(s, key), dflt)
  }

  function ObjectMapDflt(s: Settings, key: string, dflt: map<string, Settings>): (r: map<string, Settings>)
    requires RawSafe(s, key)
    ensures ObjectMap(s, key).Ok? ==> r == ObjectMap(s, key).value
    ensures !(Raw(s, key).Ok? && Raw(s, key).value.Mapping?) ==> r == dflt
    ensures r != dflt ==> r.Keys == Raw(s, key).value.entries.Keys
                          && forall k :: k in r ==> Root(r[k]) == Raw(s, key).value.entries[k]
  {
    OrElse(ObjectMap(s, key), dflt)
  }

  function StringDflt(s: Settings, key: string, dflt: string): (r: string)
    requires RawSafe(s, key)
    ensures Raw(s, key).Ok? && Raw(s, key).value.Str? ==> r == Raw(s, key).value.text
    ensures !(Raw(s, key).Ok? && Raw(s, key).value.Str?) ==> r == dflt
  {
    OrElse(String(s, key), dflt)
  }

  function StringArrayDflt(s: Settings, key: string, dflt: seq<string>): (r: seq<string>)
    requires RawSafe(s, key)
    ensures StringArray(s, key).Ok? ==> r == StringArray(s, key).value
    ensures !(Raw(s, key).Ok? && Raw(s, key).value.Sequence?) ==> r == dflt
    ensures r != dflt ==> Raw(s, key) == Ok(Sequence(seq(|r|, i requires 0 <= i < |r| => Str(r[i]))))
  {
    OrElse(StringArray(s, key), dflt)
  }

  function StringMapDflt(s: Settings, key: string, dflt: map<string, string>): (r: map<string, string>)
    requires RawSafe(s, key)
    ensures StringMap(s, key).Ok? ==> r == StringMap(s, key).value
    ensures !(Raw(s, key).Ok? && Raw(s, key).value.Mapping?) ==> r == dflt
    ensures r != dflt ==> Raw(s, key) == Ok(Mapping(map k | k in r :: Str(r[k])))
  {
    OrElse(StringMap(s, key), dflt)
  }

  function IntDflt(s: Settings, key: string, dflt: int): (r: int)
    requires RawSafe(s, key)
    ensures Raw(s, key).Ok? && Raw(s, key).value.Integer? ==> r == Raw(s, key).value.integer
    ensures !(Raw(s, key).Ok? && Raw(s, key).value.Integer?) ==> r == dflt
  {
    OrElse(Int(s, key), dflt)
  }

  function IntArrayDflt(s: Settings, key: string, dflt: seq<int>): (r: seq<int>)
    requires RawSafe(s, key)
    ensures IntArray(s, key).Ok? ==> r == IntArray(s, key).value
    ensures !(Raw(s, key).Ok? && Raw(s, key).value.Sequence?) ==> r == dflt
    ensures r != dflt ==> Raw(s, key) == Ok(Sequence(seq(|r|, i requires 0 <= i < |r| => Integer(r[i]))))
  {
    OrElse(IntArray(s, key), dflt)
  }

  function IntMapDflt(s: Settings, key: string, dflt: map<string, int>): (r: map<string, int>)
    requires RawSafe(s, key)
    ensures IntMap(s, key).Ok? ==> r == IntMap(s, key).value
    ensures !(Raw(s, key).Ok? && Raw(s, key).value.Mapping?) ==> r == dflt
    ensures r != dflt ==> Raw(s, key) == Ok(Mapping(map k | k in r :: Integer(r[k])))
  {
    OrElse(IntMap(s, key), dflt)
  }

  /** Integers are widened; anything else that is not a float gives the default. */
  function FloatDflt(s: Settings, key: string, dflt: real): (r: real)
    requires RawSafe(s, key)
    ensures Raw(s, key).Ok? && Raw(s, key).value.Floating? ==> r == Raw(s, key).value.number
    ensures Raw(s, key).Ok? && Raw(s, key).value.Integer? ==> r == Raw(s, key).value.integer as real
    ensures !(Raw(s, key).Ok? && (Raw(s, key).value.Floating? || Raw(s, key).value.Integer?)) ==> r == dflt
  {
    OrElse(Float(s, key), dflt)
  }

  function FloatArrayDflt(s: Settings, key: string, dflt: seq<real>): (r: seq<real>)
    requires RawSafe(s, key)
    ensures FloatArray(s, key).Ok? ==> r == FloatArray(s, key).value
    ensures !(Raw(s, key).Ok? && Raw(s, key).value.Sequence?) ==> r == dflt
    ensures r != dflt ==> |r| == |Raw(s, key).value.items|
                          && forall i :: 0 <= i < |r| ==> AsFloat(Raw(s, key).value.items[i]) == Ok(r[i])
  {
    OrElse(FloatArray(s, key), dflt)
  }

  function FloatMapDflt(s: Settings, key: string, dflt: map<string, real>): (r: map<string, real>)
    requires RawSafe(s, key)
    ensures FloatMap(s, key).Ok? ==> r == FloatMap(s, key).value
    ensures !(Raw(s, key).Ok? && Raw(s, key).value.Mapping?) ==> r == dflt
    ensures r != dflt ==> r.Keys == Raw(s, key).value.entries.Keys
                          && forall k :: k in r ==> AsFloat(Raw(s, key).value.entries[k]) == Ok(r[k])
  {
    OrElse(FloatMap(s, key), dflt)
  }

  /** Booleans pass, numbers are true when non-zero, ParseBool literals are
      read; anything else gives the default. */
  function BoolDflt(s: Settings, key: string, dflt: bool): (r: bool)
    requires RawSafe(s, key)
    ensures Raw(s, key).Ok? && Raw(s, key).value.Boolean? ==> r == Raw(s, key).value.boolean
    ensures Raw(s, key).Ok? && Raw(s, key).value.Integer? ==> r == (Raw(s, key).value.integer != 0)
    ensures Raw(s, key).Ok? && Raw(s, key).value.Floating? ==> r == (Raw(s, key).value.number != 0.0)
    ensures Raw(s, key).Ok? && Raw(s, key).value.Str? && Raw(s, key).value.text in TrueLiterals ==> r
    ensures Raw(s, key).Ok? && Raw(s, key).value.Str? && Raw(s, key).value.text in FalseLiterals ==> !r
    ensures Raw(s, key).Err? ==> r == dflt
    ensures Raw(s, key).Ok? && AsBool(Raw(s, key).value).Err? ==> r == dflt
  {
    OrElse(Bool(s, key), dflt)
  }

  function BoolArrayDflt(s: Settings, key: string, dflt: seq<bool>): (r: seq<bool>)
    requires RawSafe(s, key)
    ensures BoolArray(s, key).Ok? ==> r == BoolArray(s, key).value
    ensures !(Raw(s, key).Ok? && Raw(s, key).value.Sequence?) ==> r == dflt
    ensures r != dflt ==> |r| == |Raw(s, key).value.items|
                          && forall i :: 0 <= i < |r| ==> AsBool(Raw(s, key).value.items[i]) == Ok(r[i])
  {
    OrElse(BoolArray(s, key), dflt)
  }

  function BoolMapDflt(s: Settings, key: string, dflt: map<string, bool>): (r: map<string, bool>)
    requires RawSafe(s, key)
    ensures BoolMap(s, key).Ok? ==> r == BoolMap(s, key).value
    ensures !(Raw(s, key).Ok? && Raw(s, key).value.Mapping?) ==> r == dflt
    ensures r != dflt ==> r.Keys == Raw(s, key).value.entries.Keys
                          && forall k :: k in r ==> AsBool(Raw(s, key).value.entries[k]) == Ok(r[k])
  {
    OrElse(BoolMap(s, key), dflt)
  }

  /** A missing key gives back every default unchanged. */
  lemma MissingKeyGivesDefaults(s: Settings, key: string, str: string, strs: seq<string>,
                                n: int, ns: seq<int>, f: real, fs: seq<real>, b: bool, bs: seq<bool>,
                                obj: Settings, objs: seq<Settings>, v: Value,
                                strm: map<string, string>, nm: map<string, int>, fm: map<string, real>,
                                bm: map<string, bool>, objm: map<string, Settings>)
    requires RawSafe(s, key) && Raw(s, key) == Err(KeyError)
    ensures RawDflt(s, key, v) == v && ObjectDflt(s, key, obj) == obj
    ensures ObjectArrayDflt(s, key, objs) == objs && ObjectMapDflt(s, key, objm) == objm
    ensures StringDflt(s, key, str) == str && StringArrayDflt(s, key, strs) == strs
    ensures StringMapDflt(s, key, strm) == strm
    ensures IntDflt(s, key, n) == n && IntArrayDflt(s, key, ns) == ns && IntMapDflt(s, key, nm) == nm
    ensures FloatDflt(s, key, f) == f && FloatArrayDflt(s, key, fs) == fs && FloatMapDflt(s, key, fm) == fm
    ensures BoolDflt(s, key, b) == b && BoolArrayDflt(s, key, bs) == bs && BoolMapDflt(s, key, bm) == bm
  {
  }
}

=== FILE: errors.dfy ===
/** The error taxonomy shared by reads and writes, and the two wrappers that carry it. */
module Errors {

  /** The five sentinel errors of the settings package. */
  datatype Error =
    | IndexError   // a segment could not be used as an index
    | KeyError     // a read did not find a key or an index
    | ObjectError  // a container was neither a mapping nor a sequence
    | RangeError   // an index was outside a sequence on write
    | TypeError    // a value had the wrong kind for the accessor

  datatype Option<+T> = None | Some(value: T)

  /** The (value, error) pair of a Go accessor: exactly one of the two is meaningful. */
  datatype Result<+T> = Ok(value: T) | Err(error: Error)
}

=== FILE: get.dfy ===
/** Read navigation and typed access: get.go. */
module Get {
  import opened Errors
  import opened Values
  import opened Strings

  /** A key is split on every dot. */
  function Path(key: string): (names: seq<string>)
    ensures |names| >= 1
  {
    Split(key, '.')
  }

  /** The label ObjectArray gives element n of the sequence at `key`. */
  function ElementKey(key: string, n: nat): string
  {
    key + "." + FormatNat(n)
  }

  /** The label ObjectMap gives entry k of the mapping at `key`. */
  function EntryKey(key: string, k: string): string
  {
    key + "." + k
  }

  // ---------------------------------------------------------------- navigation

  /** Raw indexes a sequence with any parsed integer below its length, so a
      negative segment against a sequence would panic: walks must avoid it. */
  predicate NonNegativeIndices(v: Value, names: seq<string>)
    decreases |names|
  {
    names == [] ||
    match v
    case Mapping(m) => names[0] in m ==> NonNegativeIndices(m[names[0]], names[1..])
    case Sequence(items) =>
      (match ParseInt(names[0])
       case Some(n) => 0 <= n && (n < |items| ==> NonNegativeIndices(items[n], names[1..]))
       case None => true)
    case _ => true
  }

  /** The loop of Raw: follow each segment through mappings and sequences. */
  function Walk(v: Value, names: seq<string>): (r: Result<Value>)
    requires NonNegativeIndices(v, names)
    ensures r.Err? ==> r.error == KeyError || r.error == TypeError
    decreases |names|
  {
    if names == [] then Ok(v)
    else
      match v
      case Mapping(m) =>
        if names[0] in m then Walk(m[names[0]], names[1..]) else Err(KeyError)
      case Sequence(items) =>
        (match ParseInt(names[0])
         case Some(n) => if n < |items| then Walk(items[n], names[1..]) else Err(KeyError)
         case None => Err(KeyError))
      case _ => Err(TypeError)
  }

  /** A walk along `p + q` is a walk along `p` followed by a walk along `q`. */
  lemma {:induction false} WalkConcat(v: Value, p: seq<string>, q: seq<string>)
    requires NonNegativeIndices(v, p) && Walk(v, p).Ok?
    ensures NonNegativeIndices(v, p + q) <==> NonNegativeIndices(Walk(v, p).value, q)
    ensures NonNegativeIndices(v, p + q) ==> Walk(v, p + q) == Walk(Walk(v, p).value, q)
    decreases |p|
  {
    if p == [] {
      assert p + q == q;
    } else {
      assert (p + q)[0] == p[0];
      assert (p + q)[1..] == p[1..] + q;
      match v
      case Mapping(m) => WalkConcat(m[p[0]], p[1..], q);
      case Sequence(items) => WalkConcat(items[ParseInt(p[0]).value], p[1..], q);
    }
  }

  /** A walk that fails stays failed however far the path is extended. */
  lemma {:induction false} WalkConcatFails(v: Value, p: seq<string>, q: seq<string>)
    requires NonNegativeIndices(v, p + q) && NonNegativeIndices(v, p) && Walk(v, p).Err?
    ensures Walk(v, p + q).Err?
    decreases |p|
  {
    assert p != [];
    assert (p + q)[0] == p[0];
    assert (p + q)[1..] == p[1..] + q;
    match v
    case Mapping(m) =>
      if p[0] in m {
        WalkConcatFails(m[p[0]], p[1..], q);
      }
    case Sequence(items) =>
      if ParseInt(p[0]).Some? && ParseInt(p[0]).value < |items| {
        WalkConcatFails(items[ParseInt(p[0]).value], p[1..], q);
      }
    case _ =>
  }

  /** Walking any further into a scalar is a type error, not a missing key. */
  lemma WalkIntoScalar(v: Value, names: seq<string>)
    requires !v.Mapping? && !v.Sequence? && names != []
    ensures NonNegativeIndices(v, names) && Walk(v, names) == Err(TypeError)
  {
  }

  predicate RawSafe(s: Settings, key: string)
  {
    NonNegativeIndices(Root(s), Path(key))
  }

  /** Settings.Raw: the value at a dotted key. Only KeyError and TypeError can
      come out of a read. */
  function Raw(s: Settings, key: string): (r: Result<Value>)
    requires RawSafe(s, key)
    ensures r.Err? ==> r.error == KeyError || r.error == TypeError
  {
    Walk(Root(s), Path(key))
  }

  /** A settings object with no values (nil or empty) has no key at all. */
  lemma RawEmpty(s: Settings, key: string)
    requires RootMap(s) == map[]
    ensures RawSafe(s, key) && Raw(s, key) == Err(KeyError)
  {
  }

  /** The path of `key` extended by one dot-free segment. */
  lemma PathExtend(key: string, seg: string)
    requires '.' !in seg
    ensures Path(key + "." + seg) == Path(key) + [seg]
  {
    assert key + "." + seg == key + ['.'] + seg;
    SplitAtSeparator(key, seg, '.');
    SplitWithoutSeparator(seg, '.');
  }

  /** Element n of a sequence found at `key` is found again at `key.n`. */
  lemma RawElement(s: Settings, key: string, n: nat)
    requires RawSafe(s, key) && Raw(s, key).Ok? && Raw(s, key).value.Sequence?
    requires n < |Raw(s, key).value.items|
    ensures RawSafe(s, ElementKey(key, n))
    ensures Raw(s, ElementKey(key, n)) == Ok(Raw(s, key).value.items[n])
  {
    ParseFormat(n);
    PathExtend(key, FormatNat(n));
    WalkConcat(Root(s), Path(key), [FormatNat(n)]);
  }

  /** Entry k of a mapping found at `key` is found again at `key.k`, when k has no dot. */
  lemma RawEntry(s: Settings, key: string, k: string)
    requires RawSafe(s, key) && Raw(s, key).Ok? && Raw(s, key).value.Mapping?
    requires k in Raw(s, key).value.entries && '.' !in k
    ensures RawSafe(s, EntryKey(key, k))
    ensures Raw(s, EntryKey(key, k)) == Ok(Raw(s, key).value.entries[k])
  {
    PathExtend(key, k);
    WalkConcat(Root(s), Path(key), [k]);
  }

  /** A key missing from a mapping read at `key` reads as KeyError at `key.k`. */
  lemma RawMissingEntry(s: Settings, key: string, k: string)
    requires RawSafe(s, key) && Raw(s, key).Ok? && Raw(s, key).value.Mapping?
    requires k !in Raw(s, key).value.entries && '.' !in k
    ensures RawSafe(s, EntryKey(key, k))
    ensures Raw(s, EntryKey(key, k)) == Err(KeyError)
  {
    PathExtend(key, k);
    WalkConcat(Root(s), Path(key), [k]);
  }

  /** Against a sequence read at `key`, a segment that is not an integer, or is
      an index at or past the end, reads as KeyError. */
  lemma RawBadIndex(s: Settings, key: string, seg: string)
    requires RawSafe(s, key) && Raw(s, key).Ok? && Raw(s, key).value.Sequence? && '.' !in seg
    requires ParseInt(seg).None? || ParseInt(seg).value >= |Raw(s, key).value.items|
    ensures RawSafe(s, key + "." + seg)
    ensures Raw(s, key + "." + seg) == Err(KeyError)
  {
    PathExtend(key, seg);
    WalkConcat(Root(s), Path(key), [seg]);
  }

  /** A dot-free key missing from the root reads as KeyError. */
  lemma RawMissingTop(s: Settings, key: string)
    requires '.' !in key && key !in RootMap(s)
    ensures RawSafe(s, key) && Raw(s, key) == Err(KeyError)
  {
    SplitWithoutSeparator(key, '.');
  }

  // ---------------------------------------------------------------- coercions

  /** The literals strconv.ParseBool accepts. */
  const TrueLiterals: set<string> := {"1", "t", "T", "TRUE", "true", "True"}
  const FalseLiterals: set<string> := {"0", "f", "F", "FALSE", "false", "False"}

  function ParseBool(text: string): (r: Option<bool>)
    ensures r.Some? <==> text in TrueLiterals + FalseLiterals
    ensures r == Some(true) <==> text in TrueLiterals
  {
    if text in TrueLiterals then Some(true)
    else if text in FalseLiterals then Some(false)
    else None
  }

  function AsString(v: Value): (r: Result<string>)
    ensures r.Ok? <==> v.Str?
    ensures r.Ok? ==> v == Str(r.value)
    ensures r.Err? ==> r.error == TypeError
  {
    match v
    case Str(t) => Ok(t)
    case _ => Err(TypeError)
  }

  function AsInt(v: Value): (r: Result<int>)
    ensures r.Ok? <==> v.Integer?
    ensures r.Ok? ==> v == Integer(r.value)
    ensures r.Err? ==> r.error == TypeError
  {
    match v
    case Integer(n) => Ok(n)
    case _ => Err(TypeError)
  }

  /** A float, or an integer widened to a float. */
  function AsFloat(v: Value): (r: Result<real>)
    ensures r.Ok? <==> v.Floating? || v.Integer?
    ensures r.Ok? ==> v == Floating(r.value) || (v.Integer? && v.integer as real == r.value)
    ensures r.Err? ==> r.error == TypeError
  {
    match v
    case Floating(f) => Ok(f)
    case Integer(n) => Ok(n as real)
    case _ => Err(TypeError)
  }

  /** getBoolValue: booleans pass, numbers are true when non-zero, strings must
      be ParseBool literals. */
  function AsBool(v: Value): (r: Result<bool>)
    ensures r.Ok? <==> v.Boolean? || v.Integer? || v.Floating?
                       || (v.Str? && v.text in TrueLiterals + FalseLiterals)
    ensures v.Boolean? ==> r == Ok(v.boolean)
    ensures v.Integer? ==> r == Ok(v.integer != 0)
    ensures v.Floating? ==> r == Ok(v.number != 0.0)
    ensures v.Str? && r.Ok? ==> r.value == (v.text in TrueLiterals)
    ensures r.Err? ==> r.error == TypeError
  {
    match v
    case Boolean(b) => Ok(b)
    case Integer(n) => Ok(n != 0)
    case Floating(f) => Ok(f != 0.0)
    case Str(t) =>
      (match ParseBool(t)
       case Some(b) => Ok(b)
       case None => Err(TypeError))
    case _ => Err(TypeError)
  }

  /** The mapping under a sub-tree, for the Object accessors. */
  function AsTable(v: Value): (r: Result<map<string, Value>>)
    ensures r.Ok? <==> v.Mapping?
    ensures r.Ok? ==> v == Mapping(r.value)
    ensures r.Err? ==> r.error == TypeError
  {
    match v
    case Mapping(m) => Ok(m)
    case _ => Err(TypeError)
  }

  /** Coerce every item in order; the first failure fails the whole sequence. */
  function CoerceAll<T>(items: seq<Value>, coerce: Value -> Result<T>): (r: Result<seq<T>>)
    ensures r.Ok? <==> forall i :: 0 <= i < |items| ==> coerce(items[i]).Ok?
    ensures r.Ok? ==> |r.value| == |items|
    ensures r.Ok? ==> forall i :: 0 <= i < |items| ==> coerce(items[i]) == Ok(r.value[i])
    ensures r.Err? ==> exists i :: 0 <= i < |items| && coerce(items[i]) == Err(r.error)
    decreases |items|
  {
    if items == [] then Ok([])
    else
      match coerce(items[0])
      case Err(e) => Err(e)
      case Ok(x) =>
        match CoerceAll(items[1..], coerce)
        case Err(e) =>
          assert forall i :: 1 <= i < |items| ==> items[i] == items[1..][i - 1];
          Err(e)
        case Ok(xs) =>
          assert forall i :: 1 <= i < |items| ==> items[i] == items[1..][i - 1];
          Ok([x] + xs)
  }

  /** Coerce every value of a mapping, keeping every key; any failure is a TypeError. */
  function CoerceEntries<T>(m: map<string, Value>, coerce: Value -> Result<T>): (r: Result<map<string, T>>)
    ensures r.Ok? <==> forall k :: k in m ==> coerce(m[k]).Ok?
    ensures r.Ok? ==> r.value.Keys == m.Keys && forall k :: k in m ==> coerce(m[k]) == Ok(r.value[k])
    ensures r.Err? ==> r.error == TypeError && exists k :: k in m && coerce(m[k]).Err?
  {
    if forall k | k in m :: coerce(m[k]).Ok? then Ok(map k | k in m :: coerce(m[k]).value)
    else Err(TypeError)
  }

  /** The sequence accessors: the raw value must be a sequence whose items all coerce. */
  function SeqOf<T>(raw: Result<Value>, coerce: Value -> Result<T>): (r: Result<seq<T>>)
    ensures raw.Err? ==> r == Err(raw.error)
    ensures raw.Ok? && !raw.value.Sequence? ==> r == Err(TypeError)
    ensures r.Ok? <==> raw.Ok? && raw.value.Sequence?
                       && forall i :: 0 <= i < |raw.value.items| ==> coerce(raw.value.items[i]).Ok?
    ensures r.Ok? ==> |r.value| == |raw.value.items|
                      && forall i :: 0 <= i < |r.value| ==> coerce(raw.value.items[i]) == Ok(r.value[i])
    ensures r.Err? && raw.Ok? && raw.value.Sequence? ==>
              exists i :: 0 <= i < |raw.value.items| && coerce(raw.value.items[i]) == Err(r.error)
  {
    match raw
    case Err(e) => Err(e)
    case Ok(Sequence(items)) => CoerceAll(items, coerce)
    case Ok(_) => Err(TypeError)
  }

  /** The mapping accessors: the raw value must be a mapping whose values all coerce. */
  function MapOf<T>(raw: Result<Value>, coerce: Value -> Result<T>): (r: Result<map<string, T>>)
    ensures raw.Err? ==> r == Err(raw.error)
    ensures raw.Ok? && !raw.value.Mapping? ==> r == Err(TypeError)
    ensures r.Ok? ==> raw.Ok? && raw.value.Mapping? && r.value.Keys == raw.value.entries.Keys
    ensures r.Ok? ==> forall k :: k in r.value ==> coerce(raw.value.entries[k]) == Ok(r.value[k])
    ensures raw.Ok? && raw.value.Mapping? ==>
              (r.Ok? <==> forall k :: k in raw.value.entries ==> coerce(raw.value.entries[k]).Ok?)
    ensures r.Err? && raw.Ok? ==> r.error == TypeError
  {
    match raw
    case Err(e) => Err(e)
    case Ok(Mapping(m)) => CoerceEntries(m, coerce)
    case Ok(_) => Err(TypeError)
  }

  /** The scalar accessors: coerce the raw value, or pass the read error on. */
  function ScalarOf<T>(raw: Result<Value>, coerce: Value -> Result<T>): (r: Result<T>)
    ensures raw.Err? ==> r == Err(raw.error)
    ensures raw.Ok? ==> r == coerce(raw.value)
  {
    match raw
    case Err(e) => Err(e)
    case Ok(v) => coerce(v)
  }

  // ---------------------------------------------------------------- accessors

  function String(s: Settings, key: string): (r: Result<string>)
    requires RawSafe(s, key)
    ensures r.Ok? <==> Raw(s, key).Ok? && Raw(s, key).value.Str?
    ensures r.Ok? ==> Raw(s, key) == Ok(Str(r.value))
    ensures r.Err? ==> r.error == (if Raw(s, key).Err? then Raw(s, key).error else TypeError)
  {
    ScalarOf(Raw(s, key), AsString)
  }

  function StringArray(s: Settings, key: string): (r: Result<seq<string>>)
    requires RawSafe(s, key)
    ensures r.Ok? <==> Raw(s, key).Ok? && Raw(s, key).value.Sequence?
                       && forall i :: 0 <= i < |Raw(s, key).value.items| ==> Raw(s, key).value.items[i].Str?
    ensures r.Ok? ==> Raw(s, key) == Ok(Sequence(seq(|r.value|, i requires 0 <= i < |r.value| => Str(r.value[i]))))
    ensures r.Err? ==> r.error == (if Raw(s, key).Err? then Raw(s, key).error else TypeError)
  {
    var r := SeqOf(Raw(s, key), AsString);
    assert r.Ok? ==> Raw(s, key).value.items == seq(|r.value|, i requires 0 <= i < |r.value| => Str(r.value[i]));
    r
  }

  function StringMap(s: Settings, key: string): (r: Result<map<string, string>>)
    requires RawSafe(s, key)
    ensures r.Ok? <==> Raw(s, key).Ok? && Raw(s, key).value.Mapping?
                       && forall k :: k in Raw(s, key).value.entries ==> Raw(s, key).value.entries[k].Str?
    ensures r.Ok? ==> Raw(s, key) == Ok(Mapping(map k | k in r.value :: Str(r.value[k])))
    ensures r.Err? ==> r.error == (if Raw(s, key).Err? then Raw(s, key).error else TypeError)
  {
    var r := MapOf(Raw(s, key), AsString);
    assert r.Ok? ==> Raw(s, key).value.entries == map k | k in r.value :: Str(r.value[k]);
    r
  }

  function Int(s: Settings, key: string): (r: Result<int>)
    requires RawSafe(s, key)
    ensures r.Ok? <==> Raw(s, key).Ok? && Raw(s, key).value.Integer?
    ensures r.Ok? ==> Raw(s, key) == Ok(Integer(r.value))
    ensures r.Err? ==> r.error == (if Raw(s, key).Err? then Raw(s, key).error else TypeError)
  {
    ScalarOf(Raw(s, key), AsInt)
  }

  function IntArray(s: Settings, key: string): (r: Result<seq<int>>)
    requires RawSafe(s, key)
    ensures r.Ok? <==> Raw(s, key).Ok? && Raw(s, key).value.Sequence?
                       && forall i :: 0 <= i < |Raw(s, key).value.items| ==> Raw(s, key).value.items[i].Integer?
    ensures r.Ok? ==> Raw(s, key) == Ok(Sequence(seq(|r.value|, i requires 0 <= i < |r.value| => Integer(r.value[i]))))
    ensures r.Err? ==> r.error == (if Raw(s, key).Err? then Raw(s, key).error else TypeError)
  {
    var r := SeqOf(Raw(s, key), AsInt);
    assert r.Ok? ==> Raw(s, key).value.items == seq(|r.value|, i requires 0 <= i < |r.value| => Integer(r.value[i]));
    r
  }

  function IntMap(s: Settings, key: string): (r: Result<map<string, int>>)
    requires RawSafe(s, key)
    ensures r.Ok? <==> Raw(s, key).Ok? && Raw(s, key).value.Mapping?
                       && forall k :: k in Raw(s, key).value.entries ==> Raw(s, key).value.entries[k].Integer?
    ensures r.Ok? ==> Raw(s, key) == Ok(Mapping(map k | k in r.value :: Integer(r.value[k])))
    ensures r.Err? ==> r.error == (if Raw(s, key).Err? then Raw(s, key).error else TypeError)
  {
    var r := MapOf(Raw(s, key), AsInt);
    assert r.Ok? ==> Raw(s, key).value.entries == map k | k in r.value :: Integer(r.value[k]);
    r
  }

  function Float(s: Settings, key: string): (r: Result<real>)
    requires RawSafe(s, key)
    ensures r.Ok? <==> Raw(s, key).Ok? && (Raw(s, key).value.Floating? || Raw(s, key).value.Integer?)
    ensures r.Ok? ==> Raw(s, key) == Ok(Floating(r.value))
                      || (Raw(s, key).value.Integer? && Raw(s, key).value.integer as real == r.value)
    ensures r.Err? ==> r.error == (if Raw(s, key).Err? then Raw(s, key).error else TypeError)
  {
    ScalarOf(Raw(s, key), AsFloat)
  }

  function FloatArray(s: Settings, key: string): (r: Result<seq<real>>)
    requires RawSafe(s, key)
    ensures r.Ok? <==> Raw(s, key).Ok? && Raw(s, key).value.Sequence?
                       && forall i :: 0 <= i < |Raw(s, key).value.items| ==> AsFloat(Raw(s, key).value.items[i]).Ok?
    ensures r.Ok? ==> |r.value| == |Raw(s, key).value.items|
                      && forall i :: 0 <= i < |r.value| ==> AsFloat(Raw(s, key).value.items[i]) == Ok(r.value[i])
    ensures r.Err? ==> r.error == (if Raw(s, key).Err? then Raw(s, key).error else TypeError)
  {
    SeqOf(Raw(s, key), AsFloat)
  }

  function FloatMap(s: Settings, key: string): (r: Result<map<string, real>>)
    requires RawSafe(s, key)
    ensures r.Ok? <==> Raw(s, key).Ok? && Raw(s, key).value.Mapping?
                       && forall k :: k in Raw(s, key).value.entries ==> AsFloat(Raw(s, key).value.entries[k]).Ok?
    ensures r.Ok? ==> r.value.Keys == Raw(s, key).value.entries.Keys
                      && forall k :: k in r.value ==> AsFloat(Raw(s, key).value.entries[k]) == Ok(r.value[k])
    ensures r.Err? ==> r.error == (if Raw(s, key).Err? then Raw(s, key).error else TypeError)
  {
    MapOf(Raw(s, key), AsFloat)
  }

  function Bool(s: Settings, key: string): (r: Result<bool>)
    requires RawSafe(s, key)
    ensures Raw(s, key).Ok? ==> r == AsBool(Raw(s, key).value)
    ensures Raw(s, key).Err? ==> r == Err(Raw(s, key).error)
    ensures r.Err? ==> r.error == (if Raw(s, key).Err? then Raw(s, key).error else TypeError)
  {
    ScalarOf(Raw(s, key), AsBool)
  }

  function BoolArray(s: Settings, key: string): (r: Result<seq<bool>>)
    requires RawSafe(s, key)
    ensures r.Ok? <==> Raw(s, key).Ok? && Raw(s, key).value.Sequence?
                       && forall i :: 0 <= i < |Raw(s, key).value.items| ==> AsBool(Raw(s, key).value.items[i]).Ok?
    ensures r.Ok? ==> |r.value| == |Raw(s, key).value.items|
                      && forall i :: 0 <= i < |r.value| ==> AsBool(Raw(s, key).value.items[i]) == Ok(r.value[i])
    ensures r.Err? ==> r.error == (if Raw(s, key).Err? then Raw(s, key).error else TypeError)
  {
    SeqOf(Raw(s, key), AsBool)
  }

  function BoolMap(s: Settings, key: string): (r: Result<map<string, bool>>)
    requires RawSafe(s, key)
    ensures r.Ok? <==> Raw(s, key).Ok? && Raw(s, key).value.Mapping?
                       && forall k :: k in Raw(s, key).value.entries ==> AsBool(Raw(s, key).value.entries[k]).Ok?
    ensures r.Ok? ==> r.value.Keys == Raw(s, key).value.entries.Keys
                      && forall k :: k in r.value ==> AsBool(Raw(s, key).value.entries[k]) == Ok(r.value[k])
    ensures r.Err? ==> r.error == (if Raw(s, key).Err? then Raw(s, key).error else TypeError)
  {
    MapOf(Raw(s, key), AsBool)
  }

  // ---------------------------------------------------------------- sub-trees

  /** A sub-mapping wrapped as a settings object labelled with its key. */
  function Object(s: Settings, key: string): (r: Result<Settings>)
    requires RawSafe(s, key)
    ensures r.Ok? <==> Raw(s, key).Ok? && Raw(s, key).value.Mapping?
    ensures r.Ok? ==> r.value.key == key && r.value.values.Some?
                      && Raw(s, key) == Ok(Root(r.value))
    ensures r.Err? ==> r.error == (if Raw(s, key).Err? then Raw(s, key).error else TypeError)
  {
    match ScalarOf(Raw(s, key), AsTable)
    case Ok(m) => Ok(Settings(key, Some(m)))
    case Err(e) => Err(e)
  }

  /** Every item must be a mapping; item n is labelled `key.n`. */
  function ObjectArray(s: Settings, key: string): (r: Result<seq<Settings>>)
    requires RawSafe(s, key)
    ensures r.Ok? <==> Raw(s, key).Ok? && Raw(s, key).value.Sequence?
                       && forall i :: 0 <= i < |Raw(s, key).value.items| ==> Raw(s, key).value.items[i].Mapping?
    ensures r.Ok? ==> |r.value| == |Raw(s, key).value.items|
    ensures r.Ok? ==> forall i :: 0 <= i < |r.value| ==>
                        r.value[i].key == ElementKey(key, i) && r.value[i].values.Some?
                        && Root(r.value[i]) == Raw(s, key).value.items[i]
    ensures r.Err? ==> r.error == (if Raw(s, key).Err? then Raw(s, key).error else TypeError)
  {
    match SeqOf(Raw(s, key), AsTable)
    case Ok(tables) =>
      Ok(seq(|tables|, i requires 0 <= i < |tables| => Settings(ElementKey(key, i), Some(tables[i]))))
    case Err(e) => Err(e)
  }

  /** Every value must be a mapping; entry k is labelled `key.k`. */
  function ObjectMap(s: Settings, key: string): (r: Result<map<string, Settings>>)
    requires RawSafe(s, key)
    ensures r.Ok? <==> Raw(s, key).Ok? && Raw(s, key).value.Mapping?
                       && forall k :: k in Raw(s, key).value.entries ==> Raw(s, key).value.entries[k].Mapping?
    ensures r.Ok? ==> r.value.Keys == Raw(s, key).value.entries.Keys
    ensures r.Ok? ==> forall k :: k in r.value ==>
                        r.value[k].key == EntryKey(key, k) && r.value[k].values.Some?
                        && Root(r.value[k]) == Raw(s, key).value.entries[k]
    ensures r.Err? ==> r.error == (if Raw(s, key).Err? then Raw(s, key).error else TypeError)
  {
    match MapOf(Raw(s, key), AsTable)
    case Ok(tables) => Ok(map k | k in tables :: Settings(EntryKey(key, k), Some(tables[k])))
    case Err(e) => Err(e)
  }

  // ---------------------------------------------------------------- agreement

  /** Each element an array accessor returns is what the scalar accessor of the
      same kind returns at `key.n`. */
  lemma ArrayElementsAgree(s: Settings, key: string, n: nat)
    requires RawSafe(s, key)
    ensures StringArray(s, key).Ok? && n < |StringArray(s, key).value| ==>
              RawSafe(s, ElementKey(key, n)) && String(s, ElementKey(key, n)) == Ok(StringArray(s, key).value[n])
    ensures IntArray(s, key).Ok? && n < |IntArray(s, key).value| ==>
              RawSafe(s, ElementKey(key, n)) && Int(s, ElementKey(key, n)) == Ok(IntArray(s, key).value[n])
    ensures FloatArray(s, key).Ok? && n < |FloatArray(s, key).value| ==>
              RawSafe(s, ElementKey(key, n)) && Float(s, ElementKey(key, n)) == Ok(FloatArray(s, key).value[n])
  {
    if Raw(s, key).Ok? && Raw(s, key).value.Sequence? && n < |Raw(s, key).value.items| {
      RawElement(s, key, n);
    }
    if StringArray(s, key).Ok? && n < |StringArray(s, key).value| {
      assert Raw(s, key).value.items[n] == Str(StringArray(s, key).value[n]);
    }
    if IntArray(s, key).Ok? && n < |IntArray(s, key).value| {
      assert Raw(s, key).value.items[n] == Integer(IntArray(s, key).value[n]);
    }
  }

  /** The same for the boolean and the object array accessors. */
  lemma BoolAndObjectArrayElementsAgree(s: Settings, key: string, n: nat)
    requires RawSafe(s, key)
    ensures BoolArray(s, key).Ok? && n < |BoolArray(s, key).value| ==>
              RawSafe(s, ElementKey(key, n)) && Bool(s, ElementKey(key, n)) == Ok(BoolArray(s, key).value[n])
    ensures ObjectArray(s, key).Ok? && n < |ObjectArray(s, key).value| ==>
              RawSafe(s, ElementKey(key, n)) && Object(s, ElementKey(key, n)) == Ok(ObjectArray(s, key).value[n])
  {
    if Raw(s, key).Ok? && Raw(s, key).value.Sequence? && n < |Raw(s, key).value.items| {
      RawElement(s, key, n);
    }
  }

  /** Each entry a mapping accessor returns is what the scalar accessor of the
      same kind returns at `key.k`, for an entry key without a dot. */
  lemma MapEntriesAgree(s: Settings, key: string, k: string)
    requires RawSafe(s, key) && '.' !in k
    ensures StringMap(s, key).Ok? && k in StringMap(s, key).value ==>
              RawSafe(s, EntryKey(key, k)) && String(s, EntryKey(key, k)) == Ok(StringMap(s, key).value[k])
    ensures IntMap(s, key).Ok? && k in IntMap(s, key).value ==>
              RawSafe(s, EntryKey(key, k)) && Int(s, EntryKey(key, k)) == Ok(IntMap(s, key).value[k])
    ensures FloatMap(s, key).Ok? && k in FloatMap(s, key).value ==>
              RawSafe(s, EntryKey(key, k)) && Float(s, EntryKey(key, k)) == Ok(FloatMap(s, key).value[k])
    ensures BoolMap(s, key).Ok? && k in BoolMap(s, key).value ==>
              RawSafe(s, EntryKey(key, k)) && Bool(s, EntryKey(key, k)) == Ok(BoolMap(s, key).value[k])
    ensures ObjectMap(s, key).Ok? && k in ObjectMap(s, key).value ==>
              RawSafe(s, EntryKey(key, k)) && Object(s, EntryKey(key, k)) == Ok(ObjectMap(s, key).value[k])
  {
    if Raw(s, key).Ok? && Raw(s, key).value.Mapping? && k in Raw(s, key).value.entries {
      RawEntry(s, key, k);
    }
  }
}

=== FILE: set.dfy ===
/** Write-side mutation: set.go. The Go code mutates maps and slices in place
    through references it found by walking the tree; here every write returns
    the rewritten tree. `Lookup` plays the part of the reference the Go code
    holds, and `Replace` writes a changed container back along its path. */
module Mutate {
  import opened Errors
  import opened Values
  import opened Strings
  import opened Get

  function Prefix(names: seq<string>): seq<string>
    requires |names| >= 1
  {
    names[..|names| - 1]
  }

  function Last(names: seq<string>): string
    requires |names| >= 1
  {
    names[|names| - 1]
  }

  lemma PrefixLast(names: seq<string>)
    requires |names| >= 1
    ensures names == Prefix(names) + [Last(names)]
  {
  }

  /** `b` differs from `a` at most at key k. */
  ghost predicate SameExcept(a: map<string, Value>, b: map<string, Value>, k: string)
  {
    && (forall j :: j != k ==> (j in a <==> j in b))
    && (forall j :: j in a && j != k ==> b[j] == a[j])
  }

  // ---------------------------------------------------------------- elements

  /** getElement indexes a sequence with any parsed integer, so an integer
      outside the sequence would panic. */
  predicate ElementSafe(obj: Value, index: string)
  {
    obj.Sequence? && ParseInt(index).Some? ==> 0 <= ParseInt(index).value < |obj.items|
  }

  /** getElement: a missing mapping key is an IndexError, so that the write
      paths can tell "create it" from "cannot descend" (ObjectError). */
  function GetElement(obj: Value, index: string): (r: Result<Value>)
    requires ElementSafe(obj, index)
    ensures r.Ok? <==> (obj.Mapping? && index in obj.entries) || (obj.Sequence? && ParseInt(index).Some?)
    ensures r.Ok? && obj.Mapping? ==> r.value == obj.entries[index]
    ensures r.Ok? && obj.Sequence? ==> r.value == obj.items[ParseInt(index).value]
    ensures r.Err? ==> (r.error == IndexError <==> obj.Mapping?)
    ensures r.Err? ==> r.error == IndexError || r.error == ObjectError
  {
    match obj
    case Mapping(m) => if index in m then Ok(m[index]) else Err(IndexError)
    case Sequence(items) =>
      (match ParseInt(index)
       case Some(n) => Ok(items[n])
       case None => Err(ObjectError))
    case _ => Err(ObjectError)
  }

  /** setElement, returning the updated container. */
  function SetElement(obj: Value, index: string, x: Value): (r: Result<Value>)
    ensures obj.Mapping? ==> r.Ok? && r.value.Mapping? && index in r.value.entries
                             && r.value.entries[index] == x && SameExcept(obj.entries, r.value.entries, index)
    ensures obj.Sequence? && ParseInt(index).None? ==> r == Err(IndexError)
    ensures obj.Sequence? && ParseInt(index).Some? && !(0 <= ParseInt(index).value < |obj.items|) ==>
              r == Err(RangeError)
    ensures obj.Sequence? && ParseInt(index).Some? && 0 <= ParseInt(index).value < |obj.items| ==>
              && r.Ok? && r.value.Sequence? && |r.value.items| == |obj.items|
              && r.value.items[ParseInt(index).value] == x
              && forall j :: 0 <= j < |obj.items| && j != ParseInt(index).value ==> r.value.items[j] == obj.items[j]
    ensures !obj.Mapping? && !obj.Sequence? ==> r == Err(ObjectError)
  {
    match obj
    case Mapping(m) => Ok(Mapping(m[index := x]))
    case Sequence(items) =>
      (match ParseInt(index)
       case None => Err(IndexError)
       case Some(n) => if n < 0 || n >= |items| then Err(RangeError) else Ok(Sequence(items[n := x])))
    case _ => Err(ObjectError)
  }

  /** Reading back what was just stored gives the stored value. */
  lemma GetAfterSetElement(obj: Value, index: string, x: Value)
    requires SetElement(obj, index, x).Ok?
    ensures ElementSafe(SetElement(obj, index, x).value, index)
    ensures GetElement(SetElement(obj, index, x).value, index) == Ok(x)
  {
  }

  /** Storing the element that is already there changes nothing. */
  lemma SetElementUnchanged(obj: Value, index: string)
    requires ElementSafe(obj, index) && GetElement(obj, index).Ok?
    ensures SetElement(obj, index, GetElement(obj, index).value) == Ok(obj)
  {
    match obj
    case Mapping(m) =>
      assert m[index := m[index]] == m;
    case Sequence(items) =>
      var n := ParseInt(index).value;
      assert items[n := items[n]] == items;
  }

  // ---------------------------------------------------------------- paths

  /** No getElement along `path` can panic. Past a missing key the write paths
      only meet freshly created mappings, so nothing more is needed there. */
  predicate PathSafe(v: Value, path: seq<string>)
    decreases |path|
  {
    path == [] ||
    (ElementSafe(v, path[0]) &&
     (GetElement(v, path[0]).Ok? ==> PathSafe(GetElement(v, path[0]).value, path[1..])))
  }

  /** The container a chain of getElement calls reaches. */
  function Lookup(v: Value, path: seq<string>): (r: Result<Value>)
    requires PathSafe(v, path)
    ensures r.Err? ==> r.error == IndexError || r.error == ObjectError
    decreases |path|
  {
    if path == [] then Ok(v)
    else
      match GetElement(v, path[0])
      case Err(e) => Err(e)
      case Ok(c) => Lookup(c, path[1..])
  }

  lemma {:induction false} PathSafePrefix(v: Value, p: seq<string>, q: seq<string>)
    requires PathSafe(v, p + q)
    ensures PathSafe(v, p)
    decreases |p|
  {
    if p != [] {
      assert (p + q)[0] == p[0];
      assert (p + q)[1..] == p[1..] + q;
      if GetElement(v, p[0]).Ok? {
        PathSafePrefix(GetElement(v, p[0]).value, p[1..], q);
      }
    }
  }

  /** A lookup along `p + q` is a lookup along `p` followed by one along `q`. */
  lemma {:induction false} LookupConcat(v: Value, p: seq<string>, q: seq<string>)
    requires PathSafe(v, p) && Lookup(v, p).Ok?
    ensures PathSafe(v, p + q) <==> PathSafe(Lookup(v, p).value, q)
    ensures PathSafe(v, p + q) ==> Lookup(v, p + q) == Lookup(Lookup(v, p).value, q)
    decreases |p|
  {
    if p == [] {
      assert p + q == q;
    } else {
      assert (p + q)[0] == p[0];
      assert (p + q)[1..] == p[1..] + q;
      LookupConcat(GetElement(v, p[0]).value, p[1..], q);
    }
  }

  /** A lookup that fails stays failed however far the path is extended. */
  lemma {:induction false} LookupConcatFails(v: Value, p: seq<string>, q: seq<string>)
    requires PathSafe(v, p + q) && PathSafe(v, p) && Lookup(v, p).Err?
    ensures Lookup(v, p + q) == Lookup(v, p)
    decreases |p|
  {
    assert (p + q)[0] == p[0];
    assert (p + q)[1..] == p[1..] + q;
    if GetElement(v, p[0]).Ok? {
      LookupConcatFails(GetElement(v, p[0]).value, p[1..], q);
    }
  }

  /** Where no getElement can panic, the read walk and the write-side lookup
      succeed on the same paths and then reach the same value. */
  lemma {:induction false} LookupAgreesWithWalk(v: Value, path: seq<string>)
    requires PathSafe(v, path)
    ensures NonNegativeIndices(v, path)
    ensures Walk(v, path).Ok? <==> Lookup(v, path).Ok?
    ensures Walk(v, path).Ok? ==> Walk(v, path) == Lookup(v, path)
    decreases |path|
  {
    if path != [] && GetElement(v, path[0]).Ok? {
      LookupAgreesWithWalk(GetElement(v, path[0]).value, path[1..]);
    }
  }

  /** Write container `c` back at `path`, rebuilding every container above it. */
  function Replace(v: Value, path: seq<string>, c: Value): (r: Value)
    requires PathSafe(v, path) && Lookup(v, path).Ok?
    ensures PathSafe(r, path) && Lookup(r, path) == Ok(c)
    ensures path != [] ==> (r.Mapping? <==> v.Mapping?)
    ensures path != [] && v.Mapping? ==> SameExcept(v.entries, r.entries, path[0])
    decreases |path|
  {
    if path == [] then c
    else
      var child := GetElement(v, path[0]).value;
      SetElement(v, path[0], Replace(child, path[1..], c)).value
  }

  /** A walk down through a replaced container continues in the new container. */
  lemma WalkThroughReplace(v: Value, p: seq<string>, c: Value, q: seq<string>)
    requires PathSafe(v, p) && Lookup(v, p).Ok?
    ensures NonNegativeIndices(Replace(v, p, c), p + q) <==> NonNegativeIndices(c, q)
    ensures NonNegativeIndices(c, q) ==> Walk(Replace(v, p, c), p + q) == Walk(c, q)
  {
    var r := Replace(v, p, c);
    LookupAgreesWithWalk(r, p);
    WalkConcat(r, p, q);
  }

  /** createPath: descend along `path`, installing an empty mapping at every
      missing mapping key. Descending into anything that is neither a mapping
      nor a sequence, or into a sequence with a non-integer segment, is an
      ObjectError; nothing is created before such a failure. */
  function CreatePath(v: Value, path: seq<string>): (r: Result<Value>)
    requires PathSafe(v, path)
    ensures r.Err? <==> Lookup(v, path) == Err(ObjectError)
    ensures r.Err? ==> r.error == ObjectError
    ensures r.Ok? ==> PathSafe(r.value, path) && Lookup(r.value, path).Ok?
    ensures Lookup(v, path).Ok? ==> r == Ok(v)
    ensures r.Ok? ==> r.value == v || Lookup(r.value, path) == Ok(Mapping(map[]))
    ensures v == Mapping(map[]) ==> r.Ok?
    ensures v.Mapping? && r.Ok? ==> r.value.Mapping?
    ensures v.Mapping? && r.Ok? && path != [] ==> SameExcept(v.entries, r.value.entries, path[0])
    decreases |path|
  {
    if path == [] then Ok(v)
    else
      match GetElement(v, path[0])
      case Ok(next) =>
        (match CreatePath(next, path[1..])
         case Ok(w) =>
           if w == next then
             SetElementUnchanged(v, path[0]);
             Ok(v)
           else Ok(SetElement(v, path[0], w).value)
         case Err(e) => Err(e))
      case Err(e) =>
        if e == IndexError then
          Ok(SetElement(v, path[0], CreatePath(Mapping(map[]), path[1..]).value).value)
        else Err(e)
  }

  /** getParent: the tree with the parent of the last segment created. */
  function GetParent(v: Value, names: seq<string>): (r: Result<Value>)
    requires |names| >= 1 && PathSafe(v, Prefix(names))
    ensures r == CreatePath(v, Prefix(names))
  {
    if |names| == 1 then Ok(v) else CreatePath(v, Prefix(names))
  }

  /** What the write paths learn after creating the parent of segment n: the
      parent can be indexed safely, and indexing it succeeds exactly when the
      whole path already existed, in which case nothing was created. */
  lemma ParentOfPath(v: Value, p: seq<string>, n: string)
    requires PathSafe(v, p + [n])
    ensures PathSafe(v, p)
    ensures CreatePath(v, p).Ok? ==>
              var t := CreatePath(v, p).value;
              && PathSafe(t, p) && Lookup(t, p).Ok? && ElementSafe(Lookup(t, p).value, n)
              && (GetElement(Lookup(t, p).value, n).Ok? <==> Lookup(v, p + [n]).Ok?)
              && GetElement(Lookup(t, p).value, n) == Lookup(v, p + [n])
              && (Lookup(v, p + [n]).Ok? ==> t == v)
    ensures CreatePath(v, p).Err? ==> Lookup(v, p + [n]) == Err(ObjectError)
  {
    PathSafePrefix(v, p, [n]);
    if Lookup(v, p).Ok? {
      LookupConcat(v, p, [n]);
      var c := Lookup(v, p).value;
      assert PathSafe(c, [n]);
      assert Lookup(c, [n]) == GetElement(c, n);
    } else {
      LookupConcatFails(v, p, [n]);
    }
  }

  /** After writing `c` at `p`, a container `c` holding `x` at `n` makes
      `p + [n]` lead to `x`. */
  lemma LookupThroughReplace(v: Value, p: seq<string>, c: Value, n: string, x: Value)
    requires PathSafe(v, p) && Lookup(v, p).Ok?
    requires ElementSafe(c, n) && GetElement(c, n) == Ok(x)
    ensures PathSafe(Replace(v, p, c), p + [n])
    ensures Lookup(Replace(v, p, c), p + [n]) == Ok(x)
  {
    var r := Replace(v, p, c);
    LookupConcat(r, p, [n]);
    assert Lookup(c, [n]) == GetElement(c, n);
  }

  /** setElement on the container at `p`, written back into the tree: the
      whole path `p + [n]` then leads to the stored value. */
  function Store(tree: Value, p: seq<string>, n: string, x: Value): (r: Value)
    requires tree.Mapping? && PathSafe(tree, p) && Lookup(tree, p).Ok?
    requires SetElement(Lookup(tree, p).value, n, x).Ok?
    ensures r.Mapping?
    ensures PathSafe(r, p + [n]) && Lookup(r, p + [n]) == Ok(x)
  {
    var parent := Lookup(tree, p).value;
    var stored := SetElement(parent, n, x).value;
    GetAfterSetElement(parent, n, x);
    LookupThroughReplace(tree, p, stored, n, x);
    assert p == [] ==> stored.Mapping?;
    Replace(tree, p, stored)
  }

  // ---------------------------------------------------------------- frames

  /** Path q leaves path p at some segment: up to there both name the same
      containers of `v`, and there q names another entry of a mapping, or
      another index (or no index at all) of a sequence, than p does. */
  predicate Apart(v: Value, p: seq<string>, q: seq<string>)
    decreases |p|
  {
    p != [] && q != [] &&
    match v
    case Mapping(m) => q[0] != p[0] || (p[0] in m && Apart(m[p[0]], p[1..], q[1..]))
    case Sequence(items) =>
      ParseInt(q[0]) != ParseInt(p[0])
      || (ParseInt(p[0]).Some? && 0 <= ParseInt(p[0]).value < |items|
          && Apart(items[ParseInt(p[0]).value], p[1..], q[1..]))
    case _ => false
  }

  /** setElement leaves every other entry of the container as it was. */
  lemma SetElementFrame(obj: Value, n: string, x: Value, q: seq<string>)
    requires SetElement(obj, n, x).Ok? && Apart(obj, [n], q)
    ensures NonNegativeIndices(SetElement(obj, n, x).value, q) <==> NonNegativeIndices(obj, q)
    ensures NonNegativeIndices(obj, q) ==> Walk(SetElement(obj, n, x).value, q) == Walk(obj, q)
  {
  }

  /** Writing a container back at `p` changes nothing a read apart from `p` finds. */
  lemma {:induction false} ReplaceFrame(v: Value, p: seq<string>, c: Value, q: seq<string>)
    requires PathSafe(v, p) && Lookup(v, p).Ok? && Apart(v, p, q)
    ensures NonNegativeIndices(Replace(v, p, c), q) <==> NonNegativeIndices(v, q)
    ensures NonNegativeIndices(v, q) ==> Walk(Replace(v, p, c), q) == Walk(v, q)
    decreases |p|
  {
    var child := GetElement(v, p[0]).value;
    match v
    case Mapping(m) =>
      if q[0] == p[0] {
        ReplaceFrame(child, p[1..], c, q[1..]);
      }
    case Sequence(items) =>
      if ParseInt(q[0]) == ParseInt(p[0]) {
        ReplaceFrame(child, p[1..], c, q[1..]);
      }
  }

  /** Storing at `p + [n]` changes nothing a read apart from `p + [n]` finds. */
  lemma {:induction false} StoreFrame(v: Value, p: seq<string>, n: string, x: Value, q: seq<string>)
    requires PathSafe(v, p) && Lookup(v, p).Ok? && SetElement(Lookup(v, p).value, n, x).Ok?
    requires Apart(v, p + [n], q)
    ensures var r := Replace(v, p, SetElement(Lookup(v, p).value, n, x).value);
            && (NonNegativeIndices(r, q) <==> NonNegativeIndices(v, q))
            && (NonNegativeIndices(v, q) ==> Walk(r, q) == Walk(v, q))
    decreases |p|
  {
    if p == [] {
      assert p + [n] == [n];
      SetElementFrame(v, n, x, q);
    } else {
      assert (p + [n])[0] == p[0];
      assert (p + [n])[1..] == p[1..] + [n];
      var child := GetElement(v, p[0]).value;
      assert Lookup(child, p[1..]) == Lookup(v, p);
      match v
      case Mapping(m) =>
        if q[0] == p[0] {
          StoreFrame(child, p[1..], n, x, q[1..]);
        }
      case Sequence(items) =>
        if ParseInt(q[0]) == ParseInt(p[0]) {
          StoreFrame(child, p[1..], n, x, q[1..]);
        }
    }
  }

  /** createPath changes nothing a read apart from `p + [n]` finds, and such a
      read stays apart from `p + [n]` in the tree it returns. */
  lemma {:induction false} CreatePathFrame(v: Value, p: seq<string>, n: string, q: seq<string>)
    requires PathSafe(v, p) && CreatePath(v, p).Ok? && Apart(v, p + [n], q)
    ensures Apart(CreatePath(v, p).value, p + [n], q)
    ensures NonNegativeIndices(CreatePath(v, p).value, q) <==> NonNegativeIndices(v, q)
    ensures NonNegativeIndices(v, q) ==> Walk(CreatePath(v, p).value, q) == Walk(v, q)
    decreases |p|
  {
    if p != [] {
      assert (p + [n])[0] == p[0];
      assert (p + [n])[1..] == p[1..] + [n];
      match GetElement(v, p[0])
      case Ok(next) =>
        var w := CreatePath(next, p[1..]).value;
        if w != next {
          var inside := if v.Mapping? then q[0] == p[0] else ParseInt(q[0]) == ParseInt(p[0]);
          if inside {
            CreatePathFrame(next, p[1..], n, q[1..]);
          } else {
            SetElementFrame(v, p[0], w, q);
          }
        }
      case Err(_) =>
        var created := CreatePath(Mapping(map[]), p[1..]).value;
        SetElementFrame(v, p[0], created, q);
    }
  }

  // ---------------------------------------------------------------- operations

  /** The result of a write: the settings afterwards and the error returned.
      A Delete can both change the tree and report an error. */
  datatype Outcome = Outcome(after: Settings, error: Option<Error>)

  /** Set and Append first replace a nil root with an empty mapping. */
  function Initialised(s: Settings): (r: Settings)
    ensures r.values.Some? && RootMap(r) == RootMap(s) && r.key == s.key
  {
    Settings(s.key, Some(RootMap(s)))
  }

  function WithRoot(s: Settings, v: Value): (r: Settings)
    requires v.Mapping?
    ensures Root(r) == v && r.key == s.key && r.values.Some?
  {
    Settings(s.key, Some(v.entries))
  }

  /** Keep a tree that was not rewritten exactly as it was (a nil root stays nil). */
  function Commit(s: Settings, v: Value): (r: Settings)
    requires v.Mapping?
    ensures Root(r) == v && r.key == s.key
    ensures v == Root(s) ==> r == s
  {
    if v == Root(s) then s else WithRoot(s, v)
  }

  /** Settings.Set: store a value at a dotted key, creating missing mappings on the way. */
  function Set(s: Settings, key: string, x: Input): (r: Outcome)
    requires PathSafe(Root(s), Prefix(Path(key)))
    ensures r.error.Some? ==> r.error.value == ObjectError || r.error.value == IndexError
                              || r.error.value == RangeError
    ensures r.error.Some? ==> r.after == Initialised(s)
    ensures r.after.key == s.key && r.after.values.Some?
    ensures r.error.None? ==> PathSafe(Root(r.after), Path(key))
                              && Lookup(Root(r.after), Path(key)) == Ok(Unwrap(x))
  {
    var s0 := Initialised(s);
    var names := Path(key);
    var prefix := Prefix(names);
    assert Root(s0) == Root(s);
    PrefixLast(names);
    match CreatePath(Root(s0), prefix)
    case Err(e) => Outcome(s0, Some(e))
    case Ok(tree) =>
      var parent := Lookup(tree, prefix).value;
      match SetElement(parent, Last(names), Unwrap(x))
      case Err(e) => Outcome(WithRoot(s0, tree), Some(e))
      case Ok(_) => Outcome(WithRoot(s0, Store(tree, prefix, Last(names), Unwrap(x))), None)
  }

  /** The sequence an Append extends: the one already at the path, or none. */
  function Existing(v: Value, path: seq<string>): (r: seq<Value>)
    requires PathSafe(v, path)
    ensures Lookup(v, path).Ok? && Lookup(v, path).value.Sequence? ==> r == Lookup(v, path).value.items
    ensures r != [] ==> Lookup(v, path) == Ok(Sequence(r))
  {
    match Lookup(v, path)
    case Ok(Sequence(items)) => items
    case _ => []
  }

  /** Settings.Append: extend the sequence at a dotted key, or start one. */
  function Append(s: Settings, key: string, x: Input): (r: Outcome)
    requires PathSafe(Root(s), Path(key))
    ensures r.error.Some? ==> r.error == Some(ObjectError) && r.after == Initialised(s)
    ensures r.after.key == s.key && r.after.values.Some?
    ensures r.error.Some? <==> Lookup(Root(s), Path(key)) == Err(ObjectError)
    ensures r.error.None? ==> PathSafe(Root(r.after), Path(key))
                              && Lookup(Root(r.after), Path(key))
                                 == Ok(Sequence(Existing(Root(s), Path(key)) + [Unwrap(x)]))
  {
    var s0 := Initialised(s);
    var value := Unwrap(x);
    var names := Path(key);
    var prefix := Prefix(names);
    var name := Last(names);
    assert Root(s0) == Root(s);
    PrefixLast(names);
    ParentOfPath(Root(s), prefix, name);
    match GetParent(Root(s0), names)
    case Err(e) => Outcome(s0, Some(e))
    case Ok(tree) =>
      var parent := Lookup(tree, prefix).value;
      match GetElement(parent, name)
      case Err(e) =>
        if e == IndexError then
          assert [] + [value] == [value];
          Outcome(WithRoot(s0, Store(tree, prefix, name, Sequence([value]))), None)
        else Outcome(WithRoot(s0, tree), Some(e))
      case Ok(current) =>
        var base := if current.Sequence? then current.items else [];
        Outcome(WithRoot(s0, Store(tree, prefix, name, Sequence(base + [value]))), None)
  }

  /** The last step of a nested Delete, on the container holding the last
      segment: the rewritten container, None when nothing changes, or an error. */
  function DeleteFromChild(child: Value, name: string): (r: Result<Option<Value>>)
    requires ElementSafe(child, name)
    ensures r.Err? <==> !child.Mapping? && !child.Sequence?
    ensures r.Err? ==> r.error == ObjectError
    ensures child.Mapping? ==> r == Ok(Some(Mapping(child.entries - {name})))
    ensures child.Sequence? && ParseInt(name).None? ==> r == Ok(None)
    ensures child.Sequence? && ParseInt(name).Some? ==>
              var n := ParseInt(name).value;
              && r.Ok? && r.value.Some? && r.value.value.Sequence?
              && |r.value.value.items| == |child.items| - 1
              && (forall j :: 0 <= j < n ==> r.value.value.items[j] == child.items[j])
              && (forall j :: n <= j < |child.items| - 1 ==> r.value.value.items[j] == child.items[j + 1])
  {
    match child
    case Mapping(m) => Ok(Some(Mapping(m - {name})))
    case Sequence(items) =>
      (match ParseInt(name)
       case Some(n) => Ok(Some(Sequence(items[..n] + items[n + 1..])))
       case None => Ok(None))
    case _ => Err(ObjectError)
  }

  /** Delete of a key with at least two segments. */
  function DeleteNested(s: Settings, names: seq<string>): (r: Outcome)
    requires |names| >= 2 && PathSafe(Root(s), names)
    ensures r.after.key == s.key
    ensures r.error.Some? ==> r.error.value == IndexError || r.error.value == ObjectError
    ensures PathSafe(Root(s), Prefix(names))
    ensures r.error.None? <==> Lookup(Root(s), Prefix(names)).Ok?
                               && (Lookup(Root(s), Prefix(names)).value.Mapping?
                                   || Lookup(Root(s), Prefix(names)).value.Sequence?)
    ensures Lookup(Root(s), Prefix(names)).Ok? ==>
              var child := Lookup(Root(s), Prefix(names)).value;
              && ElementSafe(child, Last(names))
              && (DeleteFromChild(child, Last(names)) == Ok(None) ==> r == Outcome(s, None))
              && (DeleteFromChild(child, Last(names)).Ok? && DeleteFromChild(child, Last(names)).value.Some? ==>
                    && PathSafe(Root(r.after), Prefix(names))
                    && Lookup(Root(r.after), Prefix(names)) == Ok(DeleteFromChild(child, Last(names)).value.value))
  {
    var name := Last(names);
    var path := Prefix(names);
    var childName := Last(path);
    PrefixLast(names);
    PrefixLast(path);
    PathSafePrefix(Root(s), path, [name]);
    ParentOfPath(Root(s), Prefix(path), childName);
    match GetParent(Root(s), path)
    case Err(e) => Outcome(s, Some(e))
    case Ok(tree) =>
      var parent := Lookup(tree, Prefix(path)).value;
      match GetElement(parent, childName)
      case Err(e) => Outcome(Commit(s, tree), Some(e))
      case Ok(child) =>
        LookupConcat(Root(s), path, [name]);
        assert Lookup(child, [name]) == GetElement(child, name);
        match DeleteFromChild(child, name)
        case Ok(Some(rewritten)) =>
          assert path == Prefix(path) + [childName];
          Outcome(Commit(s, Replace(tree, path, rewritten)), None)
        case Ok(None) => Outcome(Commit(s, tree), None)
        case Err(e) => Outcome(Commit(s, tree), Some(e))
  }

  /** Settings.Delete. A single segment is removed from the root if present.
      Otherwise the container holding the last segment is found (creating
      missing mappings above it); a mapping loses the key and a sequence loses
      the element, but a non-integer segment against a sequence is silently
      ignored because that branch assigns its IndexError to a shadowed variable. */
  function Delete(s: Settings, key: string): (r: Outcome)
    requires PathSafe(Root(s), Path(key))
    requires |Path(key)| >= 3 ==> s.values.Some?
    ensures r.after.key == s.key
    ensures r.error.Some? ==> r.error.value == IndexError || r.error.value == ObjectError
    ensures |Path(key)| == 1 ==> r.error.None? && RootMap(r.after) == RootMap(s) - {key}
                                 && (key !in RootMap(s) ==> r.after == s)
  {
    var names := Path(key);
    if |names| == 1 then
      match s.values
      case None => Outcome(s, None)
      case Some(m) =>
        assert names == [key] by { assert Join(names, '.') == key; }
        if names[0] in m then Outcome(Settings(s.key, Some(m - {names[0]})), None)
        else Outcome(s, None)
    else DeleteNested(s, names)
  }
}

=== FILE: set_laws.dfy ===
/** What Set, Append and Delete promise, stated through the read side. */
module MutateLaws {
  import opened Errors
  import opened Values
  import opened Strings
  import opened Get
  import opened Mutate

  /** An empty mapping has no element, so no walk through it can panic and
      every non-empty walk stops at a missing key. */
  lemma EmptyPathSafe(path: seq<string>)
    ensures PathSafe(Mapping(map[]), path)
    ensures Lookup(Mapping(map[]), path) == if path == [] then Ok(Mapping(map[])) else Err(IndexError)
  {
  }

  // ---------------------------------------------------------------- Set

  /** After a successful Set the key reads back as the stored value (a nested
      settings object reads back as its mapping). */
  lemma SetThenRaw(s: Settings, key: string, x: Input)
    requires PathSafe(Root(s), Prefix(Path(key)))
    requires Set(s, key, x).error.None?
    ensures RawSafe(Set(s, key, x).after, key)
    ensures Raw(Set(s, key, x).after, key) == Ok(Unwrap(x))
  {
    LookupAgreesWithWalk(Root(Set(s, key, x).after), Path(key));
  }

  /** Which Sets fail, by what the parent path leads to: a scalar or an
      unusable sequence segment on the way is an ObjectError; a missing key on
      the way is created; at the parent, a mapping always accepts the value, a
      sequence needs an integer segment (IndexError) inside it (RangeError),
      and anything else is an ObjectError. */
  lemma SetErrors(s: Settings, key: string, x: Input)
    requires PathSafe(Root(s), Prefix(Path(key)))
    ensures var names := Path(key);
            var found := Lookup(Root(s), Prefix(names));
            var r := Set(s, key, x);
            && (found == Err(ObjectError) ==> r.error == Some(ObjectError))
            && (found == Err(IndexError) ==> r.error == None)
            && (found.Ok? && found.value.Mapping? ==> r.error == None)
            && (found.Ok? && found.value.Sequence? ==>
                  r.error == (match ParseInt(Last(names))
                              case None => Some(IndexError)
                              case Some(n) => if 0 <= n < |found.value.items| then None else Some(RangeError)))
            && (found.Ok? && !found.value.Mapping? && !found.value.Sequence? ==> r.error == Some(ObjectError))
  {
  }

  /** Set changes nothing a key whose path leaves the written path finds. */
  lemma SetFrame(s: Settings, key: string, x: Input, other: string)
    requires PathSafe(Root(s), Prefix(Path(key)))
    requires Apart(Root(s), Path(key), Path(other))
    ensures RawSafe(Set(s, key, x).after, other) <==> RawSafe(s, other)
    ensures RawSafe(s, other) ==> Raw(Set(s, key, x).after, other) == Raw(s, other)
  {
    var names := Path(key);
    var prefix := Prefix(names);
    var q := Path(other);
    PrefixLast(names);
    assert Root(Initialised(s)) == Root(s);
    if CreatePath(Root(s), prefix).Ok? {
      var tree := CreatePath(Root(s), prefix).value;
      CreatePathFrame(Root(s), prefix, Last(names), q);
      var parent := Lookup(tree, prefix).value;
      if SetElement(parent, Last(names), Unwrap(x)).Ok? {
        StoreFrame(tree, prefix, Last(names), Unwrap(x), q);
      }
    }
  }

  /** Set changes only the top-level entry named by the first segment. */
  lemma SetTopLevelFrame(s: Settings, key: string, x: Input, k: string)
    requires PathSafe(Root(s), Prefix(Path(key)))
    requires k != Path(key)[0]
    ensures k in RootMap(Set(s, key, x).after) <==> k in RootMap(s)
    ensures k in RootMap(s) ==> RootMap(Set(s, key, x).after)[k] == RootMap(s)[k]
  {
    var names := Path(key);
    var prefix := Prefix(names);
    if Set(s, key, x).error.None? {
      var tree := CreatePath(Root(s), prefix).value;
      var parent := Lookup(tree, prefix).value;
      var updated := SetElement(parent, Last(names), Unwrap(x)).value;
      if prefix == [] {
        assert Last(names) == names[0];
      } else {
        assert prefix[0] == names[0];
        assert SameExcept(RootMap(s), tree.entries, names[0]);
        assert SameExcept(tree.entries, Replace(tree, prefix, updated).entries, names[0]);
      }
    }
  }

  // ---------------------------------------------------------------- Append

  /** Append fails exactly when the path runs into a scalar, or into a sequence
      with a non-integer segment; missing mapping keys are created instead.
      Against an existing sequence a non-integer last segment is therefore an
      ObjectError, not an IndexError. */
  lemma AppendNonIntegerIntoSequence(s: Settings, key: string, x: Input)
    requires PathSafe(Root(s), Path(key)) && PathSafe(Root(s), Prefix(Path(key)))
    requires Lookup(Root(s), Prefix(Path(key))).Ok?
    requires Lookup(Root(s), Prefix(Path(key))).value.Sequence?
    requires ParseInt(Last(Path(key))).None?
    ensures Append(s, key, x).error == Some(ObjectError)
  {
    var names := Path(key);
    PrefixLast(names);
    LookupConcat(Root(s), Prefix(names), [Last(names)]);
    assert Lookup(Lookup(Root(s), Prefix(names)).value, [Last(names)])
        == GetElement(Lookup(Root(s), Prefix(names)).value, Last(names));
  }

  /** The sequence an Append extends: the one at the key, or none at all when
      the key is missing or holds anything else. */
  function Prior(s: Settings, key: string): seq<Value>
    requires RawSafe(s, key)
  {
    match Raw(s, key)
    case Ok(Sequence(items)) => items
    case _ => []
  }

  /** After a successful Append the key holds the earlier sequence (or an empty
      one) extended by the value, and the path stays safe for further writes. */
  lemma AppendThenRaw(s: Settings, key: string, x: Input)
    requires PathSafe(Root(s), Path(key))
    requires Append(s, key, x).error.None?
    ensures RawSafe(s, key)
    ensures PathSafe(Root(Append(s, key, x).after), Path(key))
    ensures RawSafe(Append(s, key, x).after, key)
    ensures Raw(Append(s, key, x).after, key) == Ok(Sequence(Prior(s, key) + [Unwrap(x)]))
  {
    LookupAgreesWithWalk(Root(s), Path(key));
    LookupAgreesWithWalk(Root(Append(s, key, x).after), Path(key));
    assert Prior(s, key) == Existing(Root(s), Path(key));
  }

  /** Append changes nothing a key whose path leaves the written path finds. */
  lemma AppendFrame(s: Settings, key: string, x: Input, other: string)
    requires PathSafe(Root(s), Path(key))
    requires Apart(Root(s), Path(key), Path(other))
    ensures RawSafe(Append(s, key, x).after, other) <==> RawSafe(s, other)
    ensures RawSafe(s, other) ==> Raw(Append(s, key, x).after, other) == Raw(s, other)
  {
    var names := Path(key);
    var prefix := Prefix(names);
    var name := Last(names);
    var q := Path(other);
    PrefixLast(names);
    ParentOfPath(Root(s), prefix, name);
    assert Root(Initialised(s)) == Root(s);
    if CreatePath(Root(s), prefix).Ok? {
      var tree := CreatePath(Root(s), prefix).value;
      CreatePathFrame(Root(s), prefix, name, q);
      var parent := Lookup(tree, prefix).value;
      match GetElement(parent, name)
      case Err(e) =>
        if e == IndexError {
          StoreFrame(tree, prefix, name, Sequence([Unwrap(x)]), q);
        }
      case Ok(current) =>
        var base := if current.Sequence? then current.items else [];
        StoreFrame(tree, prefix, name, Sequence(base + [Unwrap(x)]), q);
    }
  }

  /** Appending twice extends the sequence by both values in order. */
  lemma AppendTwice(s: Settings, key: string, x: Input, y: Input)
    requires PathSafe(Root(s), Path(key))
    requires Append(s, key, x).error.None?
    ensures RawSafe(s, key)
    ensures PathSafe(Root(Append(s, key, x).after), Path(key))
    ensures Append(Append(s, key, x).after, key, y).error.None?
    ensures RawSafe(Append(Append(s, key, x).after, key, y).after, key)
    ensures Raw(Append(Append(s, key, x).after, key, y).after, key)
            == Ok(Sequence(Prior(s, key) + [Unwrap(x), Unwrap(y)]))
  {
    var r1 := Append(s, key, x);
    AppendThenRaw(s, key, x);
    var r2 := Append(r1.after, key, y);
    assert r2.error.None? by {
      assert Lookup(Root(r1.after), Path(key)).Ok?;
    }
    AppendThenRaw(r1.after, key, y);
    assert Prior(r1.after, key) == Prior(s, key) + [Unwrap(x)];
    assert Prior(s, key) + [Unwrap(x)] + [Unwrap(y)] == Prior(s, key) + [Unwrap(x), Unwrap(y)];
  }

  /** Writes to a nil root start from an empty mapping and always succeed. */
  lemma WritesOnNilRoot(s: Settings, key: string, x: Input)
    requires s.values.None?
    ensures PathSafe(Root(s), Path(key)) && PathSafe(Root(s), Prefix(Path(key)))
    ensures Set(s, key, x).error.None?
    ensures Append(s, key, x).error.None?
    ensures RawSafe(Append(s, key, x).after, key)
    ensures Raw(Append(s, key, x).after, key) == Ok(Sequence([Unwrap(x)]))
  {
    EmptyPathSafe(Path(key));
    EmptyPathSafe(Prefix(Path(key)));
    SetErrors(s, key, x);
    AppendThenRaw(s, key, x);
    RawEmpty(s, key);
    assert Prior(s, key) == [];
    assert [] + [Unwrap(x)] == [Unwrap(x)];
  }

  // ---------------------------------------------------------------- Delete

  /** A key without a dot is removed from the root; a missing one is no error
      and changes nothing. */
  lemma DeleteTopLevel(s: Settings, key: string)
    requires '.' !in key
    ensures PathSafe(Root(s), Path(key))
    ensures Delete(s, key).error.None?
    ensures RootMap(Delete(s, key).after) == RootMap(s) - {key}
    ensures key !in RootMap(s) ==> Delete(s, key).after == s
  {
    SplitWithoutSeparator(key, '.');
  }

  /** A nested Delete succeeds exactly when the container holding the last
      segment exists and is a mapping or a sequence. */
  lemma DeleteSucceeds(s: Settings, key: string)
    requires PathSafe(Root(s), Path(key))
    requires |Path(key)| >= 3 ==> s.values.Some?
    requires |Path(key)| >= 2
    ensures var path := Prefix(Path(key));
            PathSafe(Root(s), path) &&
            (Delete(s, key).error.None? <==>
               Lookup(Root(s), path).Ok?
               && (Lookup(Root(s), path).value.Mapping? || Lookup(Root(s), path).value.Sequence?))
  {
    assert Delete(s, key) == DeleteNested(s, Path(key));
  }

  /** Which nested Deletes fail, and with what: a descent to the container
      holding the last segment that fails passes its own error on (IndexError
      for a missing child, ObjectError for a scalar or an unusable sequence
      segment on the way); a container that is neither a mapping nor a
      sequence is an ObjectError; a mapping or a sequence never fails. */
  lemma DeleteErrors(s: Settings, key: string)
    requires PathSafe(Root(s), Path(key))
    requires |Path(key)| >= 3 ==> s.values.Some?
    requires |Path(key)| >= 2
    ensures PathSafe(Root(s), Prefix(Path(key)))
    ensures var found := Lookup(Root(s), Prefix(Path(key)));
            var r := Delete(s, key);
            && (found.Err? ==> r.error == Some(found.error))
            && (found.Ok? && (found.value.Mapping? || found.value.Sequence?) ==> r.error == None)
            && (found.Ok? && !found.value.Mapping? && !found.value.Sequence? ==> r.error == Some(ObjectError))
    ensures Delete(s, key).error == Some(ObjectError) ==> Delete(s, key).after == s
  {
    var names := Path(key);
    assert Delete(s, key) == DeleteNested(s, names);
    PrefixLast(names);
    PrefixLast(Prefix(names));
    PathSafePrefix(Root(s), Prefix(names), [Last(names)]);
    ParentOfPath(Root(s), Prefix(Prefix(names)), Last(Prefix(names)));
  }

  /** After a nested Delete the container holding the last segment, read at
      the key with its last segment dropped, is rewritten: a mapping without
      the key, a sequence without the element (later elements move down one).
      A non-integer segment against a sequence changes nothing. */
  lemma DeleteThenRaw(s: Settings, key: string)
    requires PathSafe(Root(s), Path(key))
    requires |Path(key)| >= 3 ==> s.values.Some?
    requires |Path(key)| >= 2
    requires PathSafe(Root(s), Prefix(Path(key))) && Lookup(Root(s), Prefix(Path(key))).Ok?
    ensures var names := Path(key);
            var child := Lookup(Root(s), Prefix(names)).value;
            var parentKey := Join(Prefix(names), '.');
            && ElementSafe(child, Last(names))
            && (DeleteFromChild(child, Last(names)) == Ok(None) ==> Delete(s, key) == Outcome(s, None))
            && (DeleteFromChild(child, Last(names)).Ok? && DeleteFromChild(child, Last(names)).value.Some? ==>
                  && Delete(s, key).error.None?
                  && RawSafe(Delete(s, key).after, parentKey)
                  && Raw(Delete(s, key).after, parentKey) == Ok(DeleteFromChild(child, Last(names)).value.value))
  {
    var names := Path(key);
    var path := Prefix(names);
    assert forall i :: 0 <= i < |path| ==> '.' !in path[i] by {
      assert forall i :: 0 <= i < |path| ==> path[i] == names[i];
    }
    SplitJoin(path, '.');
    var r := Delete(s, key);
    assert r == DeleteNested(s, names);
    var child := Lookup(Root(s), path).value;
    if DeleteFromChild(child, Last(names)).Ok? && DeleteFromChild(child, Last(names)).value.Some? {
      LookupAgreesWithWalk(Root(r.after), path);
    }
  }

  /** A nested Delete changes nothing a key whose path leaves the path of the
      container holding the last segment finds. Inside that container a
      sequence shifts its later elements, so the frame stops there. */
  lemma DeleteFrame(s: Settings, key: string, other: string)
    requires PathSafe(Root(s), Path(key))
    requires |Path(key)| >= 3 ==> s.values.Some?
    requires |Path(key)| >= 2
    requires Apart(Root(s), Prefix(Path(key)), Path(other))
    ensures RawSafe(Delete(s, key).after, other) <==> RawSafe(s, other)
    ensures RawSafe(s, other) ==> Raw(Delete(s, key).after, other) == Raw(s, other)
  {
    var names := Path(key);
    var name := Last(names);
    var path := Prefix(names);
    var childName := Last(path);
    var q := Path(other);
    assert Delete(s, key) == DeleteNested(s, names);
    PrefixLast(names);
    PrefixLast(path);
    PathSafePrefix(Root(s), path, [name]);
    ParentOfPath(Root(s), Prefix(path), childName);
    if CreatePath(Root(s), Prefix(path)).Ok? {
      var tree := CreatePath(Root(s), Prefix(path)).value;
      CreatePathFrame(Root(s), Prefix(path), childName, q);
      var parent := Lookup(tree, Prefix(path)).value;
      if GetElement(parent, childName).Ok? {
        var child := GetElement(parent, childName).value;
        LookupConcat(Root(s), path, [name]);
        assert Lookup(child, [name]) == GetElement(child, name);
        var d := DeleteFromChild(child, name);
        if d.Ok? && d.value.Some? {
          LookupConcat(tree, Prefix(path), [childName]);
          assert Lookup(parent, [childName]) == GetElement(parent, childName);
          ReplaceFrame(tree, path, d.value.value, q);
        }
      }
    }
  }

  /** After deleting from a mapping, the key no longer reads. */
  lemma DeleteFromMapping(s: Settings, key: string)
    requires PathSafe(Root(s), Path(key))
    requires |Path(key)| >= 3 ==> s.values.Some?
    requires |Path(key)| >= 2
    requires PathSafe(Root(s), Prefix(Path(key))) && Lookup(Root(s), Prefix(Path(key))).Ok?
    requires Lookup(Root(s), Prefix(Path(key))).value.Mapping?
    ensures RawSafe(Delete(s, key).after, key) && Raw(Delete(s, key).after, key) == Err(KeyError)
  {
    var names := Path(key);
    var path := Prefix(names);
    var child := Lookup(Root(s), path).value;
    assert Delete(s, key) == DeleteNested(s, names);
    var after := Root(Delete(s, key).after);
    PrefixLast(names);
    LookupAgreesWithWalk(after, path);
    WalkConcat(after, path, [Last(names)]);
    assert Walk(Mapping(child.entries - {Last(names)}), [Last(names)]) == Err(KeyError);
  }

  /** A nested Delete may create mappings and still fail: when the first
      segment is missing from the root, the missing mappings down to the
      parent of the container holding the last segment are created, the
      deepest one empty, and the delete reports IndexError for the missing
      child. */
  lemma DeleteCreatesStructure(s: Settings, key: string)
    requires |Path(key)| >= 3 && s.values.Some?
    requires Path(key)[0] !in RootMap(s)
    ensures PathSafe(Root(s), Path(key))
    ensures Delete(s, key).error == Some(IndexError)
    ensures Path(key)[0] in RootMap(Delete(s, key).after)
    ensures PathSafe(Root(Delete(s, key).after), Prefix(Prefix(Path(key))))
    ensures Lookup(Root(Delete(s, key).after), Prefix(Prefix(Path(key)))) == Ok(Mapping(map[]))
  {
    assert Delete(s, key) == DeleteNested(s, Path(key));
    var names := Path(key);
    var path := Prefix(names);
    assert GetElement(Root(s), names[0]) == Err(IndexError);
    assert Prefix(path)[0] == names[0];
    assert Lookup(Root(s), Prefix(path)) == Err(IndexError);
    var tree := CreatePath(Root(s), Prefix(path)).value;
    assert Lookup(tree, Prefix(path)) == Ok(Mapping(map[]));
  }
}

=== FILE: size.dfy ===
/** ParseSize of utils.go: a byte count with an optional unit suffix. */
module Size {
  import opened Errors
  import opened Strings

  /** A unit suffix and the number of bytes it stands for. */
  datatype Unit = Unit(symbol: string, factor: nat)

  /** The suffixes in the order they are tried: the two-letter forms come
      first so that "kb" is not read as a "b" after a stray "k". */
  const Units: seq<Unit> := [
    Unit("kb", 1024),
    Unit("mb", 1048576),
    Unit("gb", 1073741824),
    Unit("tb", 1099511627776),
    Unit("b", 1),
    Unit("k", 1024),
    Unit("m", 1048576),
    Unit("g", 1073741824),
    Unit("t", 1099511627776)
  ]

  const Int64Min: int := -0x8000_0000_0000_0000
  const Int64Max: int := 0x7FFF_FFFF_FFFF_FFFF

  predicate InInt64(x: int)
  {
    Int64Min <= x <= Int64Max
  }

  /** Two's-complement wrap-around of a 64-bit multiplication. */
  function Wrap64(x: int): (r: int)
    ensures InInt64(r)
    ensures InInt64(x) ==> r == x
    ensures (r - x) % 0x1_0000_0000_0000_0000 == 0
  {
    if InInt64(x) then x else (x - Int64Min) % 0x1_0000_0000_0000_0000 + Int64Min
  }

  predicate HasSuffix(s: string, suffix: string)
  {
    |suffix| <= |s| && s[|s| - |suffix|..] == suffix
  }

  /** The suffix loop, from unit i on, guarded: a unit longer than the text
      simply does not match. The result is the index of the first unit that
      is a suffix, or |Units| when none is. */
  function FirstUnit(s: string, i: nat): (j: nat)
    requires i <= |Units|
    ensures i <= j <= |Units|
    ensures forall k :: i <= k < j ==> !HasSuffix(s, Units[k].symbol)
    ensures j < |Units| ==> HasSuffix(s, Units[j].symbol)
    decreases |Units| - i
  {
    if i == |Units| then i
    else if HasSuffix(s, Units[i].symbol) then i
    else FirstUnit(s, i + 1)
  }

  /** strconv.ParseInt(s, 10, 64) followed by the 64-bit product with the factor. */
  function Scale(number: string, factor: nat): (r: Option<int>)
    ensures r.Some? ==> InInt64(r.value)
    ensures r.Some? <==> ParseInt(number).Some? && InInt64(ParseInt(number).value)
    ensures r.Some? ==> r.value == Wrap64(ParseInt(number).value * factor)
  {
    match ParseInt(number)
    case Some(n) => if InInt64(n) then Some(Wrap64(n * factor)) else None
    case None => None
  }

  /** The text ParseSize works on: lower-cased, white space trimmed. */
  function Normal(s: string): (t: string)
    ensures t == [] || (!IsSpace(t[0]) && !IsSpace(t[|t| - 1]))
  {
    TrimSpace(ToLower(s))
  }

  /** The size a normalised text stands for: cut the first unit that is a
      suffix, trim again, and scale the number by the unit's factor. */
  function SizeOf(t: string): (r: Option<int>)
    ensures r.Some? ==> InInt64(r.value)
  {
    SizeAt(t, FirstUnit(t, 0))
  }

  /** The text before unit j, trimmed again: the number. */
  function NumberText(t: string, j: nat): string
    requires j < |Units| && HasSuffix(t, Units[j].symbol)
  {
    TrimSpace(t[..|t| - |Units[j].symbol|])
  }

  /** The size once unit j is chosen (|Units| for no unit). */
  function SizeAt(t: string, j: nat): (r: Option<int>)
    requires j <= |Units|
    requires j < |Units| ==> HasSuffix(t, Units[j].symbol)
    ensures r.Some? ==> InInt64(r.value)
  {
    if j < |Units| then Scale(NumberText(t, j), Units[j].factor)
    else Scale(t, 1)
  }

  /** ParseSize with the suffix test guarded by the text's length: the number of
      bytes, or None where Go returns strconv's error. */
  function ParseSize(s: string): (r: Option<int>)
    ensures r.Some? ==> InInt64(r.value)
  {
    SizeOf(Normal(s))
  }

  // ---------------------------------------------------------------- as written

  /** The outcome of the Go function: bytes, an error from strconv (a syntax
      error, or a range error for a count beyond 64 bits), or a runtime panic. */
  datatype Outcome = Bytes(n: int) | ParseError | Panic

  /** The UTF-8 encoding of one character. */
  function EncodeChar(c: char): (r: seq<int>)
    ensures 1 <= |r| <= 4
    ensures c as int < 0x80 <==> r[|r| - 1] < 0x80
    ensures c as int < 0x80 ==> r == [c as int]
  {
    var x := c as int;
    if x < 0x80 then [x]
    else if x < 0x800 then [0xC0 + x / 64, 0x80 + x % 64]
    else if x < 0x1_0000 then [0xE0 + x / 4096, 0x80 + x / 64 % 64, 0x80 + x % 64]
    else [0xF0 + x / 262144, 0x80 + x / 4096 % 64, 0x80 + x / 64 % 64, 0x80 + x % 64]
  }

  /** The bytes of a Go string: its UTF-8 encoding. */
  function Encode(s: string): (b: seq<int>)
    ensures |s| <= |b|
    decreases |s|
  {
    if s == [] then [] else Encode(s[..|s| - 1]) + EncodeChar(s[|s| - 1])
  }

  /** Go's len of a string: the number of bytes, not of characters. Fewer than
      two bytes means no text or one ASCII character. */
  function Utf8Length(s: string): (n: nat)
    ensures |s| <= n
    ensures n < 2 <==> s == [] || (|s| == 1 && s[0] as int < 0x80)
  {
    if |s| == 1 then
      assert s[..0] == [];
      assert Encode(s) == Encode([]) + EncodeChar(s[0]);
      |Encode(s)|
    else |Encode(s)|
  }

  /** The last byte of a text is an ASCII byte exactly when its last character
      is ASCII, and then it is that character. */
  lemma LastByte(s: string)
    requires s != []
    ensures var b := Encode(s);
            && |b| >= 1 && (b[|b| - 1] < 0x80 <==> s[|s| - 1] as int < 0x80)
            && (s[|s| - 1] as int < 0x80 ==> b[|b| - 1] == s[|s| - 1] as int && b[..|b| - 1] == Encode(s[..|s| - 1]))
  {
  }

  /** ASCII text encodes one byte per character. */
  lemma {:induction false} AsciiEncode(t: string)
    requires forall c :: 0 <= c < |t| ==> t[c] as int < 0x80
    ensures |Encode(t)| == |t|
    ensures forall c :: 0 <= c < |t| ==> Encode(t)[c] == t[c] as int
    decreases |t|
  {
    if t != [] {
      AsciiEncode(t[..|t| - 1]);
    }
  }

  predicate Ascii(t: string)
  {
    forall c :: 0 <= c < |t| ==> t[c] as int < 0x80
  }

  /** A text whose last character is not ASCII ends in no ASCII symbol, by
      bytes or by characters. */
  lemma NonAsciiEnd(s: string, sym: string)
    requires 1 <= |sym| <= |Encode(s)| && Ascii(sym)
    requires s != [] && s[|s| - 1] as int >= 0x80
    ensures var b := Encode(s); b[|b| - |sym|..] != Encode(sym) && !HasSuffix(s, sym)
  {
    var b := Encode(s);
    var l := |sym|;
    LastByte(s);
    AsciiEncode(sym);
    assert b[|b| - l..][l - 1] != Encode(sym)[l - 1];
  }

  /** Bytes ending in the code of the text's last character match a
      one-character symbol's byte exactly when the text ends in the symbol. */
  lemma LastCharSuffix(b: seq<int>, s: string, e: seq<int>, sym: string)
    requires |b| >= 1 && s != [] && b[|b| - 1] == s[|s| - 1] as int
    requires |sym| == 1 && e == [sym[0] as int]
    ensures b[|b| - 1..] == e <==> HasSuffix(s, sym)
  {
    var c := s[|s| - 1];
    assert b[|b| - 1..] == [b[|b| - 1]];
    assert s[|s| - 1..] == [c] && sym == [sym[0]];
    assert c == sym[0] <==> c as int == sym[0] as int;
  }

  /** One ASCII symbol character against the last byte. */
  lemma OneByteSuffix(s: string, sym: string)
    requires |sym| == 1 <= |Encode(s)| && Ascii(sym)
    requires s != [] && s[|s| - 1] as int < 0x80
    ensures var b := Encode(s); b[|b| - 1..] == Encode(sym) <==> HasSuffix(s, sym)
  {
    var b := Encode(s);
    assert |b| >= 1 && b[|b| - 1] == s[|s| - 1] as int by {
      LastByte(s);
    }
    assert Encode(sym) == [sym[0] as int] by {
      AsciiEncode(sym);
    }
    LastCharSuffix(b, s, Encode(sym), sym);
  }

  /** The last two bytes of a text ending in an ASCII character: the last is
      that character, and the one before is ASCII exactly when the character
      before is, and then it is that character. */
  lemma LastTwoBytes(s: string)
    requires |s| >= 2 && s[|s| - 1] as int < 0x80
    ensures var b := Encode(s);
            && |b| >= 2 && b[|b| - 1] == s[|s| - 1] as int
            && (b[|b| - 2] < 0x80 <==> s[|s| - 2] as int < 0x80)
            && (s[|s| - 2] as int < 0x80 ==> b[|b| - 2] == s[|s| - 2] as int)
  {
    var s1 := s[..|s| - 1];
    LastByte(s);
    LastByte(s1);
    assert s1[|s1| - 1] == s[|s| - 2];
  }

  /** Two ASCII symbol characters against the last two bytes. */
  lemma TwoByteSuffix(s: string, sym: string)
    requires |sym| == 2 <= |Encode(s)| && Ascii(sym)
    requires s != [] && s[|s| - 1] as int < 0x80
    ensures var b := Encode(s); b[|b| - 2..] == Encode(sym) <==> HasSuffix(s, sym)
  {
    var b := Encode(s);
    var n := |s|;
    assert n >= 2 by {
      LastByte(s);
    }
    LastTwoBytes(s);
    assert Encode(sym) == [sym[0] as int, sym[1] as int] by {
      AsciiEncode(sym);
    }
    assert b[|b| - 2..] == [b[|b| - 2], b[|b| - 1]];
    assert s[n - 2..] == [s[n - 2], s[n - 1]];
    if s[n - 2] as int >= 0x80 {
      assert s[n - 2] != sym[0];
    } else {
      assert s[n - 2] == sym[0] <==> s[n - 2] as int == sym[0] as int;
      assert s[n - 1] == sym[1] <==> s[n - 1] as int == sym[1] as int;
    }
  }

  /** For a short ASCII symbol, comparing the last bytes of the text is the same
      as comparing its last characters. */
  lemma SymbolSuffix(s: string, sym: string)
    requires 1 <= |sym| <= 2 && Ascii(sym) && |sym| <= |Encode(s)|
    ensures var b := Encode(s); b[|b| - |sym|..] == Encode(sym) <==> HasSuffix(s, sym)
  {
    assert s != [];
    if s[|s| - 1] as int >= 0x80 {
      NonAsciiEnd(s, sym);
    } else if |sym| == 1 {
      OneByteSuffix(s, sym);
    } else {
      TwoByteSuffix(s, sym);
    }
  }

  /** The suffix loop as utils.go writes it: `pos` counts bytes, and the slice
      `s[pos:]` is taken without checking that `pos` is not negative. None is
      the panic. */
  function FirstUnitAsWritten(s: string, i: nat): (r: Option<nat>)
    requires i <= |Units|
    ensures Utf8Length(s) >= 2 ==> r == Some(FirstUnit(s, i))
    ensures Utf8Length(s) < 2 && i < 4 ==> r == None
    decreases |Units| - i
  {
    var b := Encode(s);
    if i == |Units| then Some(i)
    else
      var sym := Units[i].symbol;
      UnitFacts(i);
      if |b| - |sym| < 0 then None
      else if b[|b| - |sym|..] == Encode(sym) then
        SymbolSuffix(s, sym);
        Some(i)
      else
        SymbolSuffix(s, sym);
        FirstUnitAsWritten(s, i + 1)
  }

  function ParseSizeAsWritten(s: string): (r: Outcome)
  {
    var t := Normal(s);
    match FirstUnitAsWritten(t, 0)
    case None => Panic
    case Some(j) =>
      match SizeAt(t, j)
      case Some(n) => Bytes(n)
      case None => ParseError
  }

  /** The two agree on every text of two or more bytes after trimming; on
      anything shorter, no text or a single ASCII character, the Go function
      panics. */
  lemma AsWrittenAgrees(s: string)
    ensures Utf8Length(Normal(s)) >= 2 ==>
              ParseSizeAsWritten(s) == (match ParseSize(s) case Some(n) => Bytes(n) case None => ParseError)
    ensures Utf8Length(Normal(s)) < 2 ==> ParseSizeAsWritten(s) == Panic
  {
    var t := Normal(s);
    if Utf8Length(t) >= 2 {
      assert FirstUnitAsWritten(t, 0) == Some(FirstUnit(t, 0));
    } else {
      assert FirstUnitAsWritten(t, 0) == None;
    }
  }

  predicate UnitLetter(c: char)
  {
    c == 'b' || c == 'k' || c == 'm' || c == 'g' || c == 't'
  }

  /** One or two letters per symbol, the last one of b, k, m, g and t. */
  lemma UnitsShape()
    ensures forall k :: 0 <= k < |Units| ==> 1 <= |Units[k].symbol| <= 2
    ensures forall k :: 0 <= k < 4 ==> |Units[k].symbol| == 2
    ensures forall k :: 0 <= k < |Units| ==> UnitLetter(Units[k].symbol[|Units[k].symbol| - 1])
    ensures forall k :: 0 <= k < |Units| ==> 1 <= Units[k].factor
  {
  }

  /** Symbols are lower-case letters. */
  lemma UnitsLowerCase()
    ensures forall k, c :: 0 <= k < |Units| && 0 <= c < |Units[k].symbol| ==> 'a' <= Units[k].symbol[c] <= 'z'
  {
  }

  /** The table's order: no symbol is tried before a longer one, and no symbol
      appears twice. */
  lemma UnitsOrder()
    ensures forall k, i :: 0 <= k < i < |Units| ==> |Units[i].symbol| <= |Units[k].symbol|
    ensures forall k, i :: 0 <= k < i < |Units| ==> Units[k].symbol != Units[i].symbol
  {
  }

  /** A text ending in anything but b, k, m, g or t does not end in unit k. */
  lemma NotUnitSuffix(t: string, k: nat)
    requires k < |Units|
    requires |t| >= 1 && !UnitLetter(t[|t| - 1])
    ensures !HasSuffix(t, Units[k].symbol)
  {
    UnitsShape();
    var sym := Units[k].symbol;
    if |sym| <= |t| {
      var tail := t[|t| - |sym|..];
      assert tail[|sym| - 1] == t[|t| - 1];
      assert tail[|sym| - 1] != sym[|sym| - 1];
    }
  }

  predicate NumeralChar(c: char)
  {
    IsDigit(c) || c == '+' || c == '-'
  }

  lemma NumeralCharFacts(c: char)
    requires NumeralChar(c)
    ensures !UnitLetter(c) && !('a' <= c <= 'z') && !('A' <= c <= 'Z') && !IsSpace(c)
  {
  }

  /** A text that strconv reads as an integer is a sign and digits: no letters,
      no white space, a digit last. */
  lemma NumeralFacts(d: string)
    requires ParseInt(d).Some?
    ensures |d| >= 1 && IsDigit(d[|d| - 1])
    ensures forall c :: 0 <= c < |d| ==> NumeralChar(d[c])
    ensures forall c :: 0 <= c < |d| ==> !('A' <= d[c] <= 'Z')
    ensures !IsSpace(d[0]) && !IsSpace(d[|d| - 1]) && !('a' <= d[|d| - 1] <= 'z') && !UnitLetter(d[|d| - 1])
  {
    var u := Unsigned(d);
    ParseIntReads(d);
    assert |u| >= 1 && AllDigits(u);
    assert d[|d| - 1] == u[|u| - 1];
    forall c | 0 <= c < |d|
      ensures NumeralChar(d[c])
    {
      if u != d && c > 0 {
        assert d[c] == u[c - 1];
      }
    }
    forall c | 0 <= c < |d|
      ensures !('A' <= d[c] <= 'Z')
    {
      NumeralCharFacts(d[c]);
    }
    NumeralCharFacts(d[0]);
    NumeralCharFacts(d[|d| - 1]);
  }

  /** So such a text has no unit at all. */
  lemma NoUnitAtEnd(t: string)
    requires |t| >= 1 && !UnitLetter(t[|t| - 1])
    ensures NoUnitSuffix(t)
  {
    forall k | 0 <= k < |Units|
      ensures !HasSuffix(t, Units[k].symbol)
    {
      NotUnitSuffix(t, k);
    }
  }

  /** A text without upper-case letters is its own lower-case form. */
  lemma LowerFixed(s: string)
    requires forall i :: 0 <= i < |s| ==> !('A' <= s[i] <= 'Z')
    ensures ToLower(s) == s
  {
  }

  /** Lower-casing works character by character and leaves white space alone. */
  lemma LowerPadding(p: string, s: string, q: string)
    requires AllSpace(p) && AllSpace(q)
    ensures ToLower(p + s + q) == p + ToLower(s) + q
  {
    var l := ToLower(p + s + q);
    var m := p + ToLower(s) + q;
    assert |l| == |m|;
    forall i | 0 <= i < |l|
      ensures l[i] == m[i]
    {
      if i < |p| {
        assert (p + s + q)[i] == p[i];
      } else if i < |p| + |s| {
        assert (p + s + q)[i] == s[i - |p|];
      } else {
        assert (p + s + q)[i] == q[i - |p| - |s|];
      }
    }
  }

  /** Case is ignored and white space around the text does not matter. */
  lemma ParseSizeNormalises(p: string, s1: string, s2: string, q: string)
    requires AllSpace(p) && AllSpace(q)
    requires ToLower(s1) == ToLower(s2)
    ensures ParseSize(p + s1 + q) == ParseSize(s2)
  {
    LowerPadding(p, s1, q);
    TrimSpacePadding(p, ToLower(s1), q);
    assert Normal(p + s1 + q) == Normal(s2);
  }

  /** No unit symbol is a suffix of t. */
  predicate NoUnitSuffix(t: string)
  {
    forall k :: 0 <= k < |Units| ==> !HasSuffix(t, Units[k].symbol)
  }

  /** Unit j is the first in table order that is a suffix of t. */
  predicate FirstSuffix(t: string, j: nat)
    ensures FirstSuffix(t, j) ==> j < |Units| && |Units[j].symbol| <= |t|
  {
    && j < |Units| && HasSuffix(t, Units[j].symbol)
    && forall k :: 0 <= k < j ==> !HasSuffix(t, Units[k].symbol)
  }

  /** When the normalised text ends in no unit symbol, all of it is the number
      of bytes: it must parse as an integer and fit in 64 bits. */
  lemma ParseSizeWithoutUnit(s: string)
    requires NoUnitSuffix(Normal(s))
    ensures ParseSize(s).Some? <==> ParseInt(Normal(s)).Some? && InInt64(ParseInt(Normal(s)).value)
    ensures ParseSize(s).Some? ==> ParseSize(s).value == ParseInt(Normal(s)).value
  {
    SizeWithoutUnit(Normal(s));
  }

  /** A printed count is already lower-case and trimmed. */
  lemma CountIsNormal(n: nat)
    ensures Normal(FormatNat(n)) == FormatNat(n)
  {
    LowerFixed(FormatNat(n));
    TrimSpaceOfTrimmed(FormatNat(n));
  }

  lemma ProductAtLeast(n: nat, factor: nat)
    requires 1 <= factor
    ensures n <= n * factor
  {
    assert n * factor == n * (factor - 1) + n;
  }

  /** A number is lower-case and trimmed already. */
  lemma NumeralIsNormal(d: string)
    requires ParseInt(d).Some?
    ensures Normal(d) == d
  {
    NumeralFacts(d);
    NormalFixed(d);
  }

  /** A text that ends in no unit is read whole. */
  lemma SizeWithoutUnit(t: string)
    requires NoUnitSuffix(t)
    ensures SizeOf(t).Some? <==> ParseInt(t).Some? && InInt64(ParseInt(t).value)
    ensures SizeOf(t).Some? ==> SizeOf(t).value == ParseInt(t).value
  {
    assert FirstUnit(t, 0) == |Units|;
  }

  /** A number alone is read without a unit. */
  lemma NumeralWithoutUnit(d: string)
    requires ParseInt(d).Some?
    ensures ParseSize(d).Some? <==> InInt64(ParseInt(d).value)
    ensures ParseSize(d).Some? ==> ParseSize(d).value == ParseInt(d).value
  {
    assert NoUnitSuffix(d) by {
      NumeralFacts(d);
      NoUnitAtEnd(d);
    }
    SizeWithoutUnit(d);
    assert ParseSize(d) == SizeOf(d) by {
      NumeralIsNormal(d);
    }
  }

  /** A plain decimal count is a number of bytes. */
  lemma PlainCount(n: nat)
    requires n <= Int64Max
    ensures ParseSize(FormatNat(n)) == Some(n)
  {
    ParseFormat(n);
    NumeralWithoutUnit(FormatNat(n));
  }

  /** The Go function reads plain counts of ten and more correctly. */
  lemma PlainCountAsWritten(n: nat)
    requires 10 <= n <= Int64Max
    ensures ParseSizeAsWritten(FormatNat(n)) == Bytes(n)
  {
    var d := FormatNat(n);
    assert Utf8Length(d) >= 2;
    assert Normal(d) == d by {
      ParseFormat(n);
      NumeralIsNormal(d);
    }
    PlainCount(n);
    AsWrittenAgrees(d);
  }

  /** When unit j is the first in table order that the normalised text ends in,
      the text before it, trimmed, is the number: it must parse as an integer
      and fit in 64 bits, and the size is its 64-bit product with the factor. */
  lemma ParseSizeWithUnit(s: string, j: nat)
    requires FirstSuffix(Normal(s), j)
    ensures var number := NumberText(Normal(s), j);
            && (ParseSize(s).Some? <==> ParseInt(number).Some? && InInt64(ParseInt(number).value))
            && (ParseSize(s).Some? ==> ParseSize(s).value == Wrap64(ParseInt(number).value * Units[j].factor))
  {
    SizeWithUnit(Normal(s), j);
  }

  lemma SizeWithUnit(t: string, j: nat)
    requires FirstSuffix(t, j)
    ensures var number := NumberText(t, j);
            && (SizeOf(t).Some? <==> ParseInt(number).Some? && InInt64(ParseInt(number).value))
            && (SizeOf(t).Some? ==> SizeOf(t).value == Wrap64(ParseInt(number).value * Units[j].factor))
  {
    assert FirstUnit(t, 0) == j;
  }

  /** In `pre + symbol_i`, where pre ends in a digit or white space, no unit
      tried before unit i matches. */
  lemma EarlierUnitsMiss(pre: string, i: nat, k: nat)
    requires k < i < |Units|
    requires |pre| >= 1 && !('a' <= pre[|pre| - 1] <= 'z')
    ensures !HasSuffix(pre + Units[i].symbol, Units[k].symbol)
  {
    UnitsShape();
    UnitsLowerCase();
    UnitsOrder();
    var t := pre + Units[i].symbol;
    var si := Units[i].symbol;
    var sk := Units[k].symbol;
    if |sk| <= |t| {
      var tail := t[|t| - |sk|..];
      if |sk| == |si| {
        assert tail == si;
      } else {
        assert |sk| == 2 && |si| == 1;
        assert tail[0] == pre[|pre| - 1];
        assert tail[0] != sk[0];
      }
    }
  }

  /** A number, white space, then a lower-case symbol is already normal. */
  lemma NumeralWithSymbolIsNormal(d: string, ws: string, sym: string)
    requires ParseInt(d).Some? && AllSpace(ws)
    requires |sym| >= 1 && forall c :: 0 <= c < |sym| ==> 'a' <= sym[c] <= 'z'
    ensures Normal(d + ws + sym) == d + ws + sym
    ensures ParseSize(d + ws + sym) == SizeOf(d + ws + sym)
  {
    var t := d + ws + sym;
    NumeralFacts(d);
    forall c | 0 <= c < |t|
      ensures !('A' <= t[c] <= 'Z')
    {
      if c < |d| {
        assert t[c] == d[c];
      } else if c < |d| + |ws| {
        assert t[c] == ws[c - |d|];
      } else {
        assert t[c] == sym[c - |d| - |ws|];
      }
    }
    assert t[0] == d[0];
    assert t[|t| - 1] == sym[|sym| - 1];
    NormalFixed(t);
  }

  /** ... and unit i is the first unit it ends in. */
  lemma NumeralWithUnitFinds(d: string, ws: string, i: nat)
    requires ParseInt(d).Some? && AllSpace(ws) && i < |Units|
    ensures FirstUnit(d + ws + Units[i].symbol, 0) == i
    ensures SizeOf(d + ws + Units[i].symbol) == SizeAt(d + ws + Units[i].symbol, i)
  {
    var pre := d + ws;
    var sym := Units[i].symbol;
    var t := pre + sym;
    assert !('a' <= pre[|pre| - 1] <= 'z') by {
      NumeralFacts(d);
      if ws == [] {
        assert pre[|pre| - 1] == d[|d| - 1];
      } else {
        assert pre[|pre| - 1] == ws[|ws| - 1];
      }
    }
    forall k | 0 <= k < i
      ensures !HasSuffix(t, Units[k].symbol)
    {
      EarlierUnitsMiss(pre, i, k);
    }
    assert t[|t| - |sym|..] == sym;
  }

  lemma UnitFacts(i: nat)
    requires i < |Units|
    ensures 1 <= |Units[i].symbol| <= 2 && 1 <= Units[i].factor && Ascii(Units[i].symbol)
    ensures i < 4 ==> |Units[i].symbol| == 2
    ensures forall c :: 0 <= c < |Units[i].symbol| ==> 'a' <= Units[i].symbol[c] <= 'z'
  {
    UnitsShape();
    UnitsLowerCase();
  }

  /** Cutting the symbol off a number and white space leaves the number. */
  lemma CutLeavesNumeral(d: string, ws: string, i: nat)
    requires ParseInt(d).Some? && AllSpace(ws) && i < |Units|
    ensures HasSuffix(d + ws + Units[i].symbol, Units[i].symbol)
    ensures NumberText(d + ws + Units[i].symbol, i) == d
    ensures SizeAt(d + ws + Units[i].symbol, i) == Scale(d, Units[i].factor)
  {
    var sym := Units[i].symbol;
    var t := d + ws + sym;
    assert t[|t| - |sym|..] == sym;
    assert t[..|t| - |sym|] == [] + d + ws;
    TrimSpacePadding([], d, ws);
    NumeralFacts(d);
    TrimSpaceOfTrimmed(d);
  }

  /** A signed decimal number, white space, then a unit: the number, if it fits
      in 64 bits, times the unit's factor with 64-bit wrap-around. */
  lemma NumberWithUnit(d: string, ws: string, i: nat)
    requires ParseInt(d).Some? && AllSpace(ws) && i < |Units|
    ensures var r := ParseSize(d + ws + Units[i].symbol);
            && (r.Some? <==> InInt64(ParseInt(d).value))
            && (r.Some? ==> r.value == Wrap64(ParseInt(d).value * Units[i].factor))
  {
    var t := d + ws + Units[i].symbol;
    assert ParseSize(t) == SizeOf(t) by {
      UnitFacts(i);
      NumeralWithSymbolIsNormal(d, ws, Units[i].symbol);
    }
    assert SizeOf(t) == SizeAt(t, i) by {
      NumeralWithUnitFinds(d, ws, i);
    }
    assert SizeAt(t, i) == Scale(d, Units[i].factor) by {
      CutLeavesNumeral(d, ws, i);
    }
  }

  /** When the number and its product with the factor both fit in 64 bits, no
      wrap-around happens. */
  lemma NumberInRangeWithUnit(d: string, ws: string, i: nat, v: int, p: int)
    requires ParseInt(d) == Some(v) && AllSpace(ws) && i < |Units|
    requires InInt64(v) && p == v * Units[i].factor && InInt64(p)
    ensures ParseSize(d + ws + Units[i].symbol) == Some(p)
  {
    NumberWithUnit(d, ws, i);
  }

  /** A printed count, white space, then a unit: the count times the unit's
      factor, as long as the product fits in 64 bits. */
  lemma CountWithUnit(n: nat, ws: string, i: nat)
    requires i < |Units| && AllSpace(ws)
    requires n * Units[i].factor <= Int64Max
    ensures ParseSize(FormatNat(n) + ws + Units[i].symbol) == Some(n * Units[i].factor)
  {
    ParseFormat(n);
    assert InInt64(n) && InInt64(n * Units[i].factor) by {
      UnitFacts(i);
      ProductAtLeast(n, Units[i].factor);
    }
    NumberInRangeWithUnit(FormatNat(n), ws, i, n, n * Units[i].factor);
  }

  /** A signed count with a unit: "-5kb" is minus five kilobytes. */
  lemma NegativeKilobytes()
    ensures ParseSize("-5kb") == Some(-5120)
  {
    var t := "-5kb";
    var d := t[..2];
    assert ParseInt(d) == Some(-5) by {
      assert Unsigned(d) == [d[1]];
      ParseIntReads(d);
    }
    assert t == d + [] + Units[0].symbol;
    NumberInRangeWithUnit(d, [], 0, -5, -5120);
  }

  /** A count whose product with the factor leaves 64 bits is not refused: the
      product wraps around, and the result differs from the true size. */
  lemma CountWithUnitWraps(n: nat, ws: string, i: nat)
    requires i < |Units| && AllSpace(ws)
    requires n <= Int64Max < n * Units[i].factor
    ensures ParseSize(FormatNat(n) + ws + Units[i].symbol) == Some(Wrap64(n * Units[i].factor))
    ensures Wrap64(n * Units[i].factor) != n * Units[i].factor
  {
    ParseFormat(n);
    NumberWithUnit(FormatNat(n), ws, i);
  }

  /** Lower-casing twice changes nothing more. */
  lemma LowerTwice(s: string)
    ensures ToLower(ToLower(s)) == ToLower(s)
  {
  }

  /** The same in any case and with any white space around it. */
  lemma CountWithUnitAnyCase(n: nat, ws: string, i: nat, p: string, s: string, q: string)
    requires i < |Units| && AllSpace(ws) && AllSpace(p) && AllSpace(q)
    requires n * Units[i].factor <= Int64Max
    requires ToLower(s) == FormatNat(n) + ws + Units[i].symbol
    ensures ParseSize(p + s + q) == Some(n * Units[i].factor)
  {
    LowerTwice(s);
    ParseSizeNormalises(p, s, ToLower(s), q);
    CountWithUnit(n, ws, i);
  }

  /** Case and white space ignored: " 92  Kb " is 92 kilobytes. */
  lemma SpacedKilobytes()
    ensures ParseSize(" 92  Kb ") == Some(94208)
  {
    var t := " 92  Kb ";
    var p, s, q := t[..1], t[1..7], t[7..];
    assert t == p + s + q;
    var ws := "  ";
    var d := FormatNat(92);
    assert d == "92";
    var l := ToLower(s);
    assert l[0] == d[0] && l[1] == d[1] && l[2] == ws[0] && l[3] == ws[1];
    assert l[4] == Units[0].symbol[0] && l[5] == Units[0].symbol[1];
    assert l == d + ws + Units[0].symbol;
    assert AllSpace(p) && AllSpace(q) && AllSpace(ws);
    CountWithUnitAnyCase(92, ws, 0, p, s, q);
  }

  /** A text that is already lower-case and trimmed is its own normal form. */
  lemma NormalFixed(t: string)
    requires forall i :: 0 <= i < |t| ==> !('A' <= t[i] <= 'Z')
    requires t == [] || (!IsSpace(t[0]) && !IsSpace(t[|t| - 1]))
    ensures Normal(t) == t
  {
    LowerFixed(t);
    TrimSpaceOfTrimmed(t);
  }

  /** A fraction is not a count. */
  lemma FractionRejected()
    ensures ParseSize("15.0") == None
  {
    var t := "15.0";
    assert NoUnitSuffix(t) by {
      NoUnitAtEnd(t);
    }
    assert ParseInt(t).None? by {
      assert !IsDigit(t[2]);
    }
    assert Normal(t) == t by {
      NormalFixed(t);
    }
    ParseSizeWithoutUnit(t);
  }

  /** A word after the count is not a unit. */
  lemma WordRejected()
    ensures ParseSize("15 bits") == None
  {
    var t := "15 bits";
    assert NoUnitSuffix(t) by {
      NoUnitAtEnd(t);
    }
    assert ParseInt(t).None? by {
      assert !IsDigit(t[2]);
    }
    assert Normal(t) == t by {
      NormalFixed(t);
    }
    ParseSizeWithoutUnit(t);
  }

  /** Text is not a count. */
  lemma TextRejected()
    ensures ParseSize("not a number") == None
  {
    var t := "not a number";
    assert NoUnitSuffix(t) by {
      NoUnitAtEnd(t);
    }
    assert ParseInt(t).None? by {
      assert !IsDigit(t[0]);
    }
    assert Normal(t) == t by {
      NormalFixed(t);
    }
    ParseSizeWithoutUnit(t);
  }

  /** The input that shows the panic: a one-digit byte count. */
  lemma SingleDigitPanics()
    ensures ParseSizeAsWritten("5") == Panic
    ensures ParseSize("5") == Some(5)
  {
    assert FormatNat(5) == "5";
    CountIsNormal(5);
    PlainCount(5);
    AsWrittenAgrees("5");
  }
}

=== FILE: strings.dfy ===
/** The few pieces of Go's strings and strconv packages the settings package
    relies on: splitting a path, decimal integers, ASCII case folding and
    whitespace trimming. */
module Strings {
  import opened Errors

  // ---------------------------------------------------------------- splitting

  /** Joins parts with a separator; the inverse of Split. */
  function Join(parts: seq<string>, sep: char): string
  {
    if |parts| == 0 then []
    else if |parts| == 1 then parts[0]
    else parts[0] + [sep] + Join(parts[1..], sep)
  }

  /** strings.Split(s, sep) for a one-character separator: every separator
      starts a new segment, so an empty string gives one empty segment. */
  function Split(s: string, sep: char): (r: seq<string>)
    ensures |r| >= 1
    ensures forall i :: 0 <= i < |r| ==> sep !in r[i]
    ensures Join(r, sep) == s
    decreases |s|
  {
    if s == [] then [[]]
    else if s[0] == sep then
      var t := Split(s[1..], sep);
      assert s == [sep] + s[1..];
      [[]] + t
    else
      var t := Split(s[1..], sep);
      assert s == [s[0]] + s[1..];
      [[s[0]] + t[0]] + t[1..]
  }

  /** A string without the separator is a single segment. */
  lemma {:induction false} SplitWithoutSeparator(s: string, sep: char)
    requires sep !in s
    ensures Split(s, sep) == [s]
    decreases |s|
  {
    if s != [] {
      SplitWithoutSeparator(s[1..], sep);
      assert s == [s[0]] + s[1..];
    }
  }

  /** Splitting distributes over a separator occurrence. */
  lemma {:induction false} SplitAtSeparator(a: string, b: string, sep: char)
    ensures Split(a + [sep] + b, sep) == Split(a, sep) + Split(b, sep)
    decreases |a|
  {
    var s := a + [sep] + b;
    if a == [] {
      assert s == [sep] + b;
      assert s[1..] == b;
    } else {
      assert s[1..] == a[1..] + [sep] + b;
      SplitAtSeparator(a[1..], b, sep);
    }
  }

  /** Round trip: splitting a join of separator-free parts gives the parts back. */
  lemma {:induction false} SplitJoin(parts: seq<string>, sep: char)
    requires |parts| >= 1
    requires forall i :: 0 <= i < |parts| ==> sep !in parts[i]
    ensures Split(Join(parts, sep), sep) == parts
    decreases |parts|
  {
    SplitWithoutSeparator(parts[0], sep);
    if |parts| > 1 {
      SplitJoin(parts[1..], sep);
      SplitAtSeparator(parts[0], Join(parts[1..], sep), sep);
      assert parts == [parts[0]] + parts[1..];
    }
  }

  // ---------------------------------------------------------------- integers

  predicate IsDigit(c: char)
  {
    '0' <= c <= '9'
  }

  predicate AllDigits(s: string)
  {
    forall i :: 0 <= i < |s| ==> IsDigit(s[i])
  }

  function DigitsValue(ds: string): nat
    requires AllDigits(ds)
    decreases |ds|
  {
    if ds == [] then 0
    else DigitsValue(ds[..|ds| - 1]) * 10 + ((ds[|ds| - 1] as int) - ('0' as int))
  }

  /** A non-empty run of decimal digits. */
  function ParseDigits(ds: string): (r: Option<nat>)
    ensures r.Some? <==> ds != [] && AllDigits(ds)
  {
    if ds != [] && AllDigits(ds) then Some(DigitsValue(ds)) else None
  }

  /** The text after an optional leading sign. */
  function Unsigned(s: string): string
  {
    if |s| > 0 && (s[0] == '+' || s[0] == '-') then s[1..] else s
  }

  /** strconv.Atoi and strconv.ParseInt(s, 10, 64): an optional sign followed by
      at least one decimal digit, nothing else. The 64-bit range check is not
      modelled. */
  function ParseInt(s: string): (r: Option<int>)
    ensures r.Some? ==> |s| >= 1
    ensures r.Some? && IsDigit(s[0]) ==> AllDigits(s) && r.value == DigitsValue(s)
    ensures r.Some? && r.value < 0 ==> s[0] == '-'
  {
    if |s| > 0 && (s[0] == '+' || s[0] == '-') then
      match ParseDigits(s[1..])
      case Some(n) =>
        var v: int := if s[0] == '-' then 0 - (n as int) else n;
        Some(v)
      case None => None
    else
      match ParseDigits(s)
      case Some(n) => Some(n)
      case None => None
  }

  /** What ParseInt accepts and what it reads: a text is a number exactly when
      it is one or more digits after an optional sign, and its value is that of
      the digits, negated after a minus. */
  lemma ParseIntReads(s: string)
    ensures ParseInt(s).Some? <==> Unsigned(s) != [] && AllDigits(Unsigned(s))
    ensures ParseInt(s).Some? && s[0] == '-' ==> ParseInt(s).value == 0 - DigitsValue(Unsigned(s))
    ensures ParseInt(s).Some? && s[0] != '-' ==> ParseInt(s).value == DigitsValue(Unsigned(s))
  {
  }

  function DigitChar(d: nat): (c: char)
    requires d < 10
    ensures IsDigit(c) && (c as int) - ('0' as int) == d
  {
    ('0' as int + d) as char
  }

  /** fmt's %d for a non-negative number. */
  function FormatNat(n: nat): (r: string)
    ensures |r| >= 1 && AllDigits(r)
    ensures DigitsValue(r) == n
    ensures |r| == 1 <==> n < 10
    ensures r[0] == '0' <==> n == 0
    decreases n
  {
    if n < 10 then [DigitChar(n)]
    else
      var r := FormatNat(n / 10) + [DigitChar(n % 10)];
      assert r[..|r| - 1] == FormatNat(n / 10);
      r
  }

  /** Round trip: an index printed with %d parses back to itself. */
  lemma ParseFormat(n: nat)
    ensures ParseInt(FormatNat(n)) == Some(n)
    ensures '.' !in FormatNat(n)
  {
    var r := FormatNat(n);
    assert IsDigit(r[0]);
    assert forall i :: 0 <= i < |r| ==> r[i] != '.';
  }

  // ---------------------------------------------------------------- case and space

  function LowerChar(c: char): char
  {
    if 'A' <= c <= 'Z' then (c as int + 32) as char else c
  }

  /** strings.ToLower restricted to ASCII letters. */
  function ToLower(s: string): (r: string)
    ensures |r| == |s|
    ensures forall i :: 0 <= i < |s| ==> r[i] == LowerChar(s[i])
    ensures forall i :: 0 <= i < |s| ==> !('A' <= r[i] <= 'Z')
  {
    seq(|s|, i requires 0 <= i < |s| => LowerChar(s[i]))
  }

  /** The Latin-1 white space recognised by unicode.IsSpace. */
  predicate IsSpace(c: char)
  {
    c == ' ' || c == '\t' || c == '\n' || c == '\r' || c == '\U{000B}' || c == '\U{000C}'
    || c == '\U{0085}' || c == '\U{00A0}'
  }

  predicate AllSpace(s: string)
  {
    forall i :: 0 <= i < |s| ==> IsSpace(s[i])
  }

  function TrimLeft(s: string): (r: string)
    ensures |r| <= |s| && r == s[|s| - |r|..]
    ensures AllSpace(s[..|s| - |r|])
    ensures r == [] || !IsSpace(r[0])
    decreases |s|
  {
    if s != [] && IsSpace(s[0]) then
      var r := TrimLeft(s[1..]);
      assert s[..|s| - |r|] == [s[0]] + s[1..][..|s| - 1 - |r|];
      r
    else s
  }

  function TrimRight(s: string): (r: string)
    ensures |r| <= |s| && r == s[..|r|]
    ensures AllSpace(s[|r|..])
    ensures r == [] || !IsSpace(r[|r| - 1])
    decreases |s|
  {
    if s != [] && IsSpace(s[|s| - 1]) then
      var r := TrimRight(s[..|s| - 1]);
      assert s[|r|..] == s[..|s| - 1][|r|..] + [s[|s| - 1]];
      r
    else s
  }

  /** strings.TrimSpace: drop leading and trailing white space. */
  function TrimSpace(s: string): (r: string)
    ensures r == [] || (!IsSpace(r[0]) && !IsSpace(r[|r| - 1]))
  {
    TrimRight(TrimLeft(s))
  }

  /** TrimSpace cuts an all-space prefix and an all-space suffix and keeps the
      middle of the string unchanged: s is the cut prefix followed by t, and t
      is the result followed by the cut suffix. */
  lemma TrimSpaceCuts(s: string)
    ensures var t := TrimLeft(s); var r := TrimSpace(s);
            && s == s[..|s| - |t|] + t && AllSpace(s[..|s| - |t|])
            && t == r + t[|r|..] && AllSpace(t[|r|..])
  {
    var t := TrimLeft(s);
    assert s == s[..|s| - |t|] + s[|s| - |t|..];
    assert t == t[..|TrimSpace(s)|] + t[|TrimSpace(s)|..];
  }

  /** A string that neither starts nor ends with white space is its own trim. */
  lemma TrimSpaceOfTrimmed(s: string)
    requires s == [] || (!IsSpace(s[0]) && !IsSpace(s[|s| - 1]))
    ensures TrimSpace(s) == s
  {
  }

  /** Leading white space is irrelevant to trimming. */
  lemma {:induction false} TrimLeftPadding(p: string, s: string)
    requires AllSpace(p)
    ensures TrimLeft(p + s) == TrimLeft(s)
    decreases |p|
  {
    if p != [] {
      assert (p + s)[0] == p[0] && IsSpace(p[0]);
      assert (p + s)[1..] == p[1..] + s;
      TrimLeftPadding(p[1..], s);
    } else {
      assert p + s == s;
    }
  }

  /** Trailing white space is irrelevant to trimming. */
  lemma {:induction false} TrimRightPadding(s: string, q: string)
    requires AllSpace(q)
    ensures TrimRight(s + q) == TrimRight(s)
    decreases |q|
  {
    if q != [] {
      assert (s + q)[..|s + q| - 1] == s + q[..|q| - 1];
      TrimRightPadding(s, q[..|q| - 1]);
    } else {
      assert s + q == s;
    }
  }

  /** Trimming the left of a string with some non-space keeps everything after the leading space. */
  lemma {:induction false} TrimLeftKeepsTail(s: string, q: string)
    requires TrimLeft(s) != []
    ensures TrimLeft(s + q) == TrimLeft(s) + q
    decreases |s|
  {
    if IsSpace(s[0]) {
      assert (s + q)[0] == s[0];
      assert TrimLeft(s) == TrimLeft(s[1..]);
      assert (s + q)[1..] == s[1..] + q;
      TrimLeftKeepsTail(s[1..], q);
    } else {
      assert (s + q)[0] == s[0];
    }
  }

  /** White space around a string does not change its trim. */
  lemma TrimSpacePadding(p: string, s: string, q: string)
    requires AllSpace(p) && AllSpace(q)
    ensures TrimSpace(p + s + q) == TrimSpace(s)
  {
    assert p + s + q == p + (s + q);
    TrimLeftPadding(p, s + q);
    if TrimLeft(s) == [] {
      assert AllSpace(s + q) by {
        assert AllSpace(s[..|s|]);
        assert s[..|s|] == s;
      }
      TrimLeftPadding(s + q, []);
      assert s + q + [] == s + q;
    } else {
      TrimLeftKeepsTail(s, q);
      TrimRightPadding(TrimLeft(s), q);
    }
  }
}

=== FILE: values.dfy ===
/** The dynamically typed tree a settings object wraps. */
module Values {
  import opened Errors

  /** One node of the tree, as a YAML decoder produces it. Mapping keys are the
      path segments that address them, so they are strings. */
  datatype Value =
    | Null
    | Boolean(boolean: bool)
    | Integer(integer: int)
    | Floating(number: real)
    | Str(text: string)
    | Sequence(items: seq<Value>)
    | Mapping(entries: map<string, Value>)

  /** A settings object: a diagnostic label and a root mapping, which may be nil. */
  datatype Settings = Settings(key: string, values: Option<map<string, Value>>)

  /** A nil root reads like an empty mapping. */
  function RootMap(s: Settings): map<string, Value>
  {
    match s.values
    case Some(m) => m
    case None => map[]
  }

  function Root(s: Settings): (v: Value)
    ensures v.Mapping?
  {
    Mapping(RootMap(s))
  }

  /** The value handed to a write: either a plain tree node or a whole settings
      object, which is stored as its underlying mapping. */
  datatype Input = Plain(value: Value) | Nested(tree: Settings)

  function Unwrap(x: Input): (v: Value)
    ensures x.Nested? ==> v == Mapping(RootMap(x.tree))
    ensures x.Plain? ==> v == x.value
  {
    match x
    case Plain(v) => v
    case Nested(t) => Root(t)
  }
}
